=== FILE: README.md ===
# Command-tree resolution and parameter binding

A Dafny model of the core of a small Go library for command-line programs
with nested sub-commands (package `cli`). An application builds a tree of
`Command`s. It attaches typed parameters to each command, registering one
value cell under a long name and a short alias. It then hands the argument
vector to the tree. The library walks the tree, stopping at the first
flag-shaped token, to find the addressed command. It passes the rest of the
tokens to that command's flag namespace, reads typed values back, builds help
text and runs the command's handler.

Two API shapes over the same tree are modelled:

- `Commands` (command.go): `getCurrentCommand`, `FindCommand`, `AddCommand`,
  `Parse`, the `Add*Parameter` binders, the `Get*` getters, `Help`,
  `FindHelp`, `Run` and `Do`.
- `Configurators` (configurator.go): an older front end holding the argument
  vector and the main command. It has its own tree walk (`ParseCommand`),
  its own help dispatch (`FindHelp`) and `Initialize`. It declares its own
  copy of `isFlagArg` and of two error values, so the two files could not be
  compiled together. Here they are two modules that share the `Command`
  datatype.

Supporting modules:

- `Parameters` (parameter.go): the flag descriptor and its aliases.
- `Helps`: the three-string `Help` record (help.go) and the text-layout
  helpers behind `%-Ns` padding and one-line-per-entry blocks.
- `FlagSets`: the per-command flag namespace. It maps each flag name to a
  cell, and a store maps each cell to a `Value`.
- `Strconv`: Go's decimal and boolean printers and parsers, which the getters
  go through.
- `Utf8`: the UTF-8 encoding of a token, which Go's byte-level `len` and
  indexing see.
- `Wrappers`: `Option` and `Result`.
- `Scenarios`: the trees and argument vectors of the repository's tests.

Modelling choices:

- Commands are immutable values. A Go method that mutates `*Command` returns
  the updated command instead.
- A handler is an opaque `HandlerId`. Running one is recorded as a `Call` of
  that handler on the command.
- Go's `flag.FlagSet.Parse` is a parameter of type `FlagLayer`: a function
  from a flag set and the tokens it is handed to a failure message or an
  updated flag set.
- `Parse` only writes values into the cells of registered flags. The lemmas
  that rely on this require the layer to be `WellBehaved`. Under that
  requirement a successful parse keeps every flag, cell and value kind.
- Integer cells hold 64-bit values (`Int64`), as Go's `int` does on a
  64-bit platform.
- Tokens are sequences of Unicode characters. Go's `len` and indexing work
  on bytes, so the flag-shape test is stated against the token's UTF-8
  encoding (module `Utf8`).

Behaviour of the code worth noting:

- `Aliases` always returns two names. The empty short alias is registered
  as a flag name too.
- A getter on an unregistered name dereferences nil in the source, so
  `Registered` is a precondition. `ParameterNotFound` means the registered
  cell's text is empty. That is reachable only for a string cell holding `""`.
- The kind-mismatch errors (`ErrParameterIsNot*`) are declared but never
  returned. A failed conversion returns the `strconv` error, here `NotABool`
  or `NotAnInt`.
- command.go's `FindHelp` returns no help for empty arguments, whatever the
  handler. Its later test for a handler-less command with empty arguments
  (command.go:138-140) is unreachable. `Commands.FindHelp` keeps that test
  in its body, and its contract shows that the test never yields help.
  Only configurator.go's `FindHelp` shows help on a bare invocation.
- `isFlagArg` never checks the first character in its first disjunct. So
  `a-b` is flag-shaped and `--` is not.
- `isFlagArg` looks at bytes. A token whose first character is not ASCII is
  never flag-shaped, because none of its first two bytes is a dash. So `é-x`
  is a command name.
- A parameter without a short alias registers the empty flag name, so a
  second such parameter on the same command panics (see "## Findings").
- The guard in `Parse` compares pointers: `cmd != c`. The model compares
  values. `Commands.ResolvedNodeMoved` proves the node differs from the start
  exactly when a token was consumed, so the flag layer always receives the
  tokens after the command path.

## Model

| member | source | states |
|---|---|---|
| Commands.IsFlagArg | command.go:233-236 | a token is flag-shaped exactly when the source's byte test holds on its UTF-8 encoding: at least three bytes with a dash second, or at least two with a dash first and no dash second |
| Commands.IsFlagArgByLength | command.go:232-236 | tokens shorter than two characters are never flags; a two-character token is a flag iff it is a dash followed by a non-dash; a longer token is a flag iff it starts with a dash, or its first character is ASCII and its second a dash |
| Commands.IsFlagArgExamples | command.go:233-236 | `-v`, `--verbose`, `-5`, `a-b` and `-é` are flag-shaped; the empty string, `-`, `x`, `--` and `é-x` are not |
| Configurators.IsFlagArg | configurator.go:98-101 | configurator.go's copy is the same byte test on the token's UTF-8 encoding |
| Configurators.IsFlagArgAgrees | configurator.go:97-101 | configurator.go's copy of the flag-shape predicate agrees with command.go's on every token |
| Parameters.GivenAliases | parameter.go:10-16 | the aliases a parameter means to register: its name first, its short alias only when non-empty, and exactly `Aliases` when the short alias is set |
| Parameters.Aliases | parameter.go:10-16 | exactly two aliases, the name first and the short alias second, even when the short alias is empty |
| Parameters.AliasesIgnoreText | parameter.go:11-16 | the aliases do not depend on the usage line or description |
| Strconv.Atoi | command.go:229 | accepts only an optional sign followed by decimal digits; a result is the value the text denotes (digits as written, `+` keeping and `-` negating it), so text whose value lies outside the 64-bit range is an error; plain digits in range, and a minus followed by digits in range, always read as their value |
| Strconv.ParseBool | command.go:211 | true exactly for `1 t T TRUE true True`, false exactly for `0 f F FALSE false False`, an error for every other text |
| FlagSets.Text | command.go:207 | the text a cell's `String()` prints, as read by the getters at lines 207, 216 and 225: empty only for an empty string cell; a boolean's text reads back through `ParseBool` and an integer's through `Atoi`; a string prints as itself |
| Strconv.AtoiItoa | command.go:223-230 | the decimal text of any 64-bit integer reads back through `Atoi` as that integer |
| Strconv.ParseBoolFormatBool | command.go:205-212 | the text of a boolean reads back through `ParseBool` as that boolean |
| FlagSets.NewFlagSet | command.go:41 | a new flag set has the command's name, no flags, and is well formed |
| FlagSets.DefineAll | command.go:178-180 | registering a cell under fresh, distinct names maps each name to that cell, seeds the cell with the default, keeps every other flag and cell, and preserves well-formedness |
| Commands.NewCommand | command.go:34-46 | a new command has the given strings, no children, no parameters, no handler and an empty flag namespace |
| Commands.Do | command.go:48-51 | the handler is set and nothing else changes |
| Commands.RunAfterDo | command.go:122-129 | after `Do(h)`, running the command calls exactly `h` on that command |
| Commands.AddCommand | command.go:53-57 | the child becomes the last sub-command, earlier children and all other fields are unchanged, and the child is returned |
| Commands.FirstNamed | command.go:162-169 | the index returned names a child with the query name and no earlier child has it; none is returned iff no child has it |
| Commands.FindCommand | command.go:161-169 | the result is the first child with the query name; not found iff no child has that name |
| Commands.FindCommandAfterAdd | command.go:54-57 | adding a child keeps every earlier lookup, and the new child is found under its name iff no earlier child has that name |
| Commands.GetCurrentCommand | command.go:81-97 | the position is at most the number of tokens; the consumed tokens are non-flag and name children level by level down to the returned node; without error the walk ended or stopped at a flag-shaped token; with an error the token at the position is non-flag, names no child of the returned node, and is the one the error names |
| Commands.ResolutionStep | command.go:89-94 | consuming a non-flag token that names a child extends a resolution from that child to one from the parent |
| Commands.ResolutionUnique | command.go:81-97 | any node, position and error that meet that characterisation are the walk's result |
| Commands.ResolvesKnownPath | command.go:84-96 | a path of non-flag names that leads to a node, followed by nothing or a flag, resolves without error to that node, consuming exactly the path |
| Commands.DescendShrinks | command.go:89-93 | a node reached through at least one name is a proper descendant of the start |
| Commands.ResolvedNodeMoved | command.go:66 | the resolved node differs from the start exactly when at least one token was consumed |
| Commands.Parse | command.go:60-76 | a resolution error is returned as is, with no flag parsing; otherwise the resolved node's flag layer receives exactly the tokens after the command path, and its error is returned unchanged or the node with its updated flags is returned |
| Commands.ParseKeepsBindings | command.go:68-75 | with a flag layer that only writes values, a successful parse changes only the resolved node's flags, keeps every registered name registered with a value of the same kind, and names that shared a cell read the same value |
| Commands.Message | command.go:18-20 | as formatted at lines 91 and 124: the command-not-found text starts with the offending token and the handler-not-found text with the command's name, and each ends with the text of the error value it wraps |
| Commands.HelpOf | command.go:100-119 | the sub-command block is empty iff there are no children; the parameter block is empty iff there are no parameters; the usage block is exactly `Usage: `, the usage line, a space and two newlines |
| Commands.HelpListsCommands | command.go:104-109 | a non-empty sub-command block starts with its header, then holds each child's line at consecutive offsets in child order, and ends after the last line |
| Commands.HelpListsParameters | command.go:111-116 | a non-empty parameter block starts with its header, then holds each parameter's line at consecutive offsets in parameter order, and ends after the last line |
| Commands.CommandLineFields | command.go:107 | a sub-command line starts with the child's name, shows its usage after a name column at least 20 wide, and ends with a space and a newline |
| Commands.ParameterFieldOffsets | command.go:114 | the fields of a parameter line start at columns 0, 2, name length + 2, name length + 5, then after the short alias padded to 10 and a space, then after the usage padded to 30 and a space |
| Commands.ParameterLineFields | command.go:114 | a parameter line starts with `--` and the name; `, -` follows the name and the short alias starts at name length + 5; the usage starts after the short alias padded to 10 and a space; the description starts after the usage padded to 30 and a space; the line ends with a space and a newline |
| Commands.HelpShowsDescription | command.go:111-116 | every parameter's description appears in its command's help |
| Helps.PadRight | command.go:107 | padding keeps the text as a prefix, fills with spaces to the field width, and never truncates |
| Helps.JoinLayout | command.go:105-108 | joined lines appear back to back in order, and the joined text ends after the last line |
| Commands.FindHelp | command.go:132-159 | no help and no error for empty arguments or a first token other than `help`; the command's own help for `help` alone; for `help` and a path, the resolved node's help or the resolution's error |
| Commands.Run | command.go:122-129 | fails iff there is no handler, with an error naming the command; otherwise calls the handler once on the command itself |
| Commands.Bind | command.go:171-200 | the descriptor is appended to the parameters; both aliases lead to one cell holding the default; no other flag, cell or field changes |
| Commands.AddBoolParameter | command.go:175-183 | binds a boolean cell under both aliases with its default and returns the descriptor |
| Commands.AddIntParameter | command.go:185-193 | binds an integer cell under both aliases with its default and returns the descriptor |
| Commands.AddStringParameter | command.go:195-203 | binds a string cell under both aliases with its default and returns the descriptor |
| Commands.BindRegistersAliases | command.go:178-180 | after binding, both aliases are registered and read the bound value |
| Commands.BindThenParse | command_test.go:224-287 | after binding, a flag layer that only writes values leaves both aliases registered on one cell, reading the same value of the bound kind |
| Commands.ShortlessParametersClash | parameter.go:12-15 | binding a parameter without a short alias registers the empty flag name, so a second such parameter fails the freshness that Go's `Var` enforces by panicking |
| Commands.BindCorrected | command.go:171-200 | binding that registers only the aliases a parameter has: the descriptor is appended, the name and a non-empty short alias lead to one cell holding the default, nothing else changes |
| Commands.ShortlessParametersCoexist | parameter.go:12-15 | with the corrected binding, two parameters without short aliases can both be bound, each on its own cell, and the empty flag name is never registered |
| Commands.BoolDefaultReadsBack | command.go:205-212 | a bound boolean's default reads back through `GetBool` under either alias |
| Commands.IntDefaultReadsBack | command.go:223-230 | a bound integer's default reads back through `GetInt` under either alias |
| Commands.StringDefaultReadsBack | command.go:214-221 | a bound string's default reads back through `GetString` under either alias, except that an empty default reads as a missing parameter |
| Commands.GetString | command.go:214-221 | fails iff the cell holds the empty string, and then with `ParameterNotFound`; otherwise returns the cell's non-empty text |
| Commands.GetInt | command.go:223-230 | `ParameterNotFound` iff the cell holds the empty string; an integer cell yields its value; a boolean cell is not an integer; a string cell yields what `Atoi` makes of it |
| Commands.GetBool | command.go:205-212 | `ParameterNotFound` iff the cell holds the empty string; a boolean cell yields its value; an integer cell yields false for 0, true for 1 and an error otherwise; a string cell yields what `ParseBool` makes of it |
| Configurators.NewConfigurator | configurator.go:17-21 | a new configurator holds the arguments and no main command |
| Configurators.SetMainCommand | configurator.go:24-26 | sets the main command and keeps the arguments |
| Configurators.Walk | configurator.go:59-69 | for some number of consumed tokens, the loop's node and error meet command.go's resolution characterisation |
| Configurators.WalkAgrees | configurator.go:57-71 | the configurator's walk reaches the same node and error as command.go's walk |
| Configurators.ParseCommand | configurator.go:57-71 | the result, for some number of consumed tokens, meets command.go's resolution characterisation from the main command |
| Configurators.FindHelp | configurator.go:29-52 | with no arguments, the main command's help iff it has no handler; no help for a first token other than `help`; the main command's help for `help` alone; for `help` and a path, the help of the parsed command or its error |
| Configurators.FindHelpAgreement | configurator.go:29-52 | the two help dispatchers agree whenever there are arguments; on empty arguments they agree iff the main command has a handler |
| Configurators.InitializeTokens | configurator.go:80-84 | the flag layer is not called for empty arguments; it gets all of a single argument, and all but the first of two or more |
| Configurators.Initialize | configurator.go:74-95 | a parse error is returned before any flag parsing; a flag-layer error is returned unchanged; otherwise the resolved command's handler is called once on the command with its parsed flags |
| Configurators.InitializeDropsLeadingFlag | configurator.go:80-84 | with arguments `--message hi` and a main command without children, no token is consumed by the path, yet the flag layer is handed only `hi` |
| Configurators.CorrectedTokens | configurator.go:80-84 | the corrected slice is a suffix of the arguments, every token before it is non-flag, and after a successful walk it starts at a flag-shaped token |
| Configurators.InitializeCorrected | configurator.go:74-95 | with the corrected slice, `Initialize` reaches the handler exactly when the run succeeds; for non-empty arguments it behaves like command.go's `Parse` followed by a handler call (for empty arguments both versions skip the flag layer) |
| Scenarios.AddAll | command.go:54-57 | adding children one by one appends them in order and changes nothing else |
| Scenarios.FindsEveryAddedChild | command.go:162-169 | children with distinct names added to an empty command are each found under their own name, and no other name finds one |
| Scenarios.NumberedChildrenFound | command_test.go:302-317 | after adding `command_0` to `command_{n-1}` to a command without children, each is found and `command_n` is not |
| Scenarios.TenSubCommands | command_test.go:291-320 | ten children `command_0` to `command_9` are all found and `command_10` is not |
| Scenarios.ResolutionExamples | command_test.go:143-188 | `do` and `do concurrent` resolve to the named commands |
| Scenarios.ResolutionStops | command.go:84-87 | `do --verbose concurrent` stops at `do`: the flag ends the walk and its position is where the flag tokens begin |
| Scenarios.UnknownCommandReported | command.go:89-92 | an unknown first name fails at the root with the command-not-found error naming it |
| Scenarios.HelpDoShowsMessage | command_test.go:98-141 | `help do` gives help containing `message value`, and the configurator's dispatcher gives the same |
| Scenarios.ParseThenRunCallsDo | command_test.go:48-96 | parsing `do` and running the result calls `do`'s handler on `do` |
| Scenarios.InitializeCallsDo | configurator_test.go:79-129 | `Initialize` with the argument `do` calls `do`'s handler |
| Scenarios.MessageLayerKeepsAliasesTogether | command.go:68-75 | for any tree and arguments, a successful parse through the `--message` layer changes only the resolved command's cell values, and aliases sharing a cell read the same value afterwards |
| Scenarios.StringParameterThroughParse | command_test.go:224-244 | with `message`/`m` bound on `do`, `do --message <text>` parses through a layer that writes the text, and `GetString` returns it under either alias (an empty text reads as missing) |
| Scenarios.ParsedValuesReadBack | command_test.go:190-289 | once a parsed value is stored in a bound cell, the typed getter returns it under either alias |
| Scenarios.StringCellIsNotAnInt | command.go:223-230 | `GetInt` on text that is not a decimal integer fails with a conversion error |

## Left out

- `ShowHelp` (help.go:14-19) prints and exits the process. Only the `Help` record is modelled.
- Terminal colouring of help text (command.go:12-13, 102-114) comes from a foreign library. The model treats it as plain formatting.
- The token grammar and errors of Go's `flag.FlagSet.Parse` (command.go:70, configurator.go:86) are not modelled. The parser is the `FlagLayer` parameter. Its `-h`/`-help` handling is therefore also absent, and that handling would reach the usage hook and exit.
- The `fs.Usage` hook set in `NewCommand` (command.go:42) is an output callback. `NewCommand` creates an empty node with an empty namespace.
- Newer Go versions panic when a flag name starts with `-` or contains `=`. Only the redefinition panic is modelled, as the `FreshAliases` precondition.
- Handler bodies are arbitrary closures and are opaque identifiers here. The print example (examples/print/print_example.go) is wiring only. It calls a `Configurator.Parse` that configurator.go does not define. configurator_test.go:118 calls it too, so `Scenarios.InitializeCallsDo` uses `Initialize` instead.
- Pointer aliasing is not modelled, so the tree must be built bottom-up. A child changed after it was attached is not seen by its parent here. Cyclic command graphs are excluded because values are finite trees.
- Value cells live in each command's own flag set. One Go variable bound on two different commands is not modelled.
- Command literals without a flag set, as some tests build, would panic in `Parse`. Every modelled command has a flag set.
- `Commands.GetInt`: on an out-of-range number Go's `Atoi` returns a clamped value along with the error. The model returns the error only.
- `Commands.Message`: the conversion-error text uses the syntax-error wording and quotes the input verbatim. Go's range-error wording and `strconv.Quote` escaping are not modelled.
- `Configurators.ParseCommand`, `Configurators.FindHelp` and `Configurators.Initialize` require a main command, and the paths that return normally without one are not modelled. Go panics on a nil `c.Command` only on some paths. `ParseCommand` panics only when a non-flag token reaches `FindCommand`. With empty arguments or a flag-shaped first token it returns no command and no error (configurator.go:58-62, 70). `FindHelp` returns no help and no error when the first argument is not `help` (configurator.go:31-36, 51). It panics when the arguments are empty or start with `help`. `Initialize` panics on every path. Every call site sets the main command first.
- `Commands.Parse` and `Configurators.Initialize`: a flag-layer failure returns only the error message. Go's `FlagSet.Parse` keeps the values it wrote before the bad token. After `--message hi --bogus` fails, the bound variable holds `hi` and `Lookup("message")` prints it. Those partial writes are not modelled.
- Arguments that are not valid UTF-8 cannot be written as tokens, since tokens are sequences of Unicode scalar values.
- `FlagSet.Parse` also records which flags were set and that parsing happened. Nothing in the core reads that, so it is not modelled.
- `Configurators.Initialize`: the handler call has no nil check in the source, so the model requires that a run reaching the call has a handler (`HandlerPresentWhenReached`).

## Findings

| source | as written | input that shows it | evidently intended | confidence | as-written member | corrected member |
|---|---|---|---|---|---|---|
| configurator.go:80-84 | with two or more arguments, the flag layer gets all of them but the first, however many were consumed as the command path | main command without children, arguments `--message hi`: the path consumes nothing, but the flag layer sees only `hi` and the flag is lost | hand the flag layer the tokens after the resolved command path, as command.go's `Parse` does | high, not executed | Configurators.InitializeDropsLeadingFlag | Configurators.InitializeCorrected |
| parameter.go:12-15 | `Aliases` always lists the short alias, so a parameter without one registers the empty flag name | two parameters without a short alias on one command: binding the second redefines the flag `""`, and Go's `Var` panics with "flag redefined" | register the short alias only when it is set, so the empty name is never a flag | medium, not executed | Commands.ShortlessParametersClash | Commands.ShortlessParametersCoexist |

=== FILE: command.dfy ===
/** The command tree of command.go: resolution of a command path, binding of
    typed parameters into a command's flag namespace, typed retrieval, help
    assembly and handler dispatch. Commands are immutable values; the Go
    methods that mutate a `*Command` return the updated command instead. */
module Commands {
  import opened Wrappers
  import opened Strconv
  import opened Parameters
  import opened FlagSets
  import opened Helps
  import opened Utf8

  /** An opaque name for a handler closure. */
  type HandlerId = nat

  datatype Command = Command(
    name: string,
    use: string,
    description: string,
    parameters: seq<Parameter>,
    commands: seq<Command>,
    flags: FlagSet,
    handler: Option<HandlerId>)

  /** The error values the core returns. */
  datatype Error =
    | CommandNotFound(token: string)
    | CommandHandlerNotFound(command: string)
    | ParameterNotFound
    | NotABool(text: string)
    | NotAnInt(text: string)
    | FlagError(message: string)

  const CommandNotFoundText := "command is not found in configurator's commands"
  const CommandHandlerNotFoundText := "command's handler function is not found"
  const ParameterNotFoundText := "wanted parameter is not found"

  /** The text of an error, as `fmt.Errorf("%s %w", …)` and `strconv` print
      it: a wrapped command error starts with the token or command it is
      about and ends with the text of the error value it wraps. */
  function Message(e: Error): (r: string)
    ensures e.CommandNotFound? ==>
      StartsWith(r, e.token) && EndsWith(r, " " + CommandNotFoundText)
    ensures e.CommandHandlerNotFound? ==>
      StartsWith(r, e.command) && EndsWith(r, " " + CommandHandlerNotFoundText)
  {
    match e
    case CommandNotFound(token) => token + " " + CommandNotFoundText
    case CommandHandlerNotFound(command) => command + " " + CommandHandlerNotFoundText
    case ParameterNotFound => ParameterNotFoundText
    case NotABool(text) => "strconv.ParseBool: parsing \"" + text + "\": invalid syntax"
    case NotAnInt(text) => "strconv.Atoi: parsing \"" + text + "\": invalid syntax"
    case FlagError(message) => message
  }

  // ---------------------------------------------------------------------
  // Flag shape

  /** The source's test on the bytes of a token: at least three bytes with
      a dash second, or at least two bytes with a dash first and no dash
      second. */
  predicate FlagShapedBytes(b: seq<Byte>) {
    (|b| >= 3 && b[1] == '-' as int) || (|b| >= 2 && b[0] == '-' as int && b[1] != '-' as int)
  }

  /** Whether a token is flag-shaped and so ends the command path, read on
      characters: the byte at index 1 is the second character only when the
      first is ASCII, and a non-ASCII character never encodes to a dash. */
  function IsFlagArg(arg: string): (r: bool)
    ensures r <==> FlagShapedBytes(Encode(arg))
  {
    EncodeFront(arg);
    (|arg| >= 3 && arg[0] as int < 0x80 && arg[1] == '-') || (|arg| >= 2 && arg[0] == '-' && arg[1] != '-')
  }

  /** Flag shape by length: nothing shorter than two characters is a flag;
      a two-character token is a flag exactly when it is a dash followed by
      something other than a dash; a longer token is a flag exactly when it
      starts with a dash, or its first character is ASCII and its second a
      dash. */
  lemma IsFlagArgByLength(arg: string)
    ensures |arg| < 2 ==> !IsFlagArg(arg)
    ensures |arg| == 2 ==> (IsFlagArg(arg) <==> arg[0] == '-' && arg[1] != '-')
    ensures |arg| >= 3 ==> (IsFlagArg(arg) <==> (arg[0] as int < 0x80 && arg[1] == '-') || arg[0] == '-')
  {
  }

  lemma IsFlagArgExamples()
    ensures IsFlagArg("-v") && IsFlagArg("--verbose") && IsFlagArg("-5") && IsFlagArg("a-b") && IsFlagArg("-\U{E9}")
    ensures !IsFlagArg("") && !IsFlagArg("-") && !IsFlagArg("x") && !IsFlagArg("--") && !IsFlagArg("\U{E9}-x")
  {
  }

  // ---------------------------------------------------------------------
  // Building the tree

  /** `NewCommand`: a node with no children, no parameters, no handler and
      an empty flag namespace named after the command. */
  function NewCommand(name: string, use: string, description: string): (c: Command)
    ensures c.name == name && c.use == use && c.description == description
    ensures |c.commands| == 0 && |c.parameters| == 0 && c.handler.None?
    ensures c.flags.name == name && c.flags.Valid()
    ensures forall n :: n !in c.flags.formal
  {
    Command(name, use, description, [], [], NewFlagSet(name), None)
  }

  /** `Do`: sets the handler and leaves everything else as it was. */
  function Do(c: Command, handler: HandlerId): (r: Command)
    ensures r.handler == Some(handler)
    ensures r.(handler := c.handler) == c
  {
    c.(handler := Some(handler))
  }

  /** `AddCommand`: appends the child as the last sub-command and returns
      the updated parent together with the child itself. */
  function AddCommand(c: Command, child: Command): (r: (Command, Command))
    ensures |r.0.commands| == |c.commands| + 1
    ensures r.0.commands[..|c.commands|] == c.commands
    ensures r.0.commands[|c.commands|] == child
    ensures r.0.(commands := c.commands) == c
    ensures r.1 == child
  {
    (c.(commands := c.commands + [child]), child)
  }

  /** Child `i` is the first child of `c` named `name`. */
  predicate FirstChildNamed(c: Command, name: string, i: int) {
    0 <= i < |c.commands| && c.commands[i].name == name
    && forall j :: 0 <= j < i ==> c.commands[j].name != name
  }

  /** Index of the first command in `cs` named `name`. */
  function FirstNamed(cs: seq<Command>, name: string): (r: Option<nat>)
    ensures r.Some? ==> r.value < |cs| && cs[r.value].name == name
    ensures r.Some? ==> forall j :: 0 <= j < r.value ==> cs[j].name != name
    ensures r.None? ==> forall j :: 0 <= j < |cs| ==> cs[j].name != name
  {
    if |cs| == 0 then None
    else if cs[0].name == name then Some(0)
    else match FirstNamed(cs[1..], name)
      case None => None
      case Some(k) => Some(k + 1)
  }

  /** `FindCommand`: the first child whose name equals `name`, if any. */
  function FindCommand(c: Command, name: string): (r: Option<Command>)
    ensures r.Some? ==> exists i :: FirstChildNamed(c, name, i) && r.value == c.commands[i]
    ensures r.None? <==> forall i :: 0 <= i < |c.commands| ==> c.commands[i].name != name
  {
    match FirstNamed(c.commands, name)
    case None => None
    case Some(i) => assert FirstChildNamed(c, name, i); Some(c.commands[i])
  }

  /** Adding a child leaves every earlier lookup as it was, and makes the
      new child findable exactly when no earlier child has its name. */
  lemma FindCommandAfterAdd(c: Command, child: Command, name: string)
    ensures FindCommand(AddCommand(c, child).0, name) ==
      if FindCommand(c, name).Some? then FindCommand(c, name)
      else if child.name == name then Some(child)
      else None
  {
    var p := AddCommand(c, child).0;
    var n := |c.commands|;
    match FindCommand(c, name)
    case Some(x) =>
      var i :| FirstChildNamed(c, name, i) && x == c.commands[i];
      assert FirstChildNamed(p, name, i);
      var y := FindCommand(p, name).value;
      var k :| FirstChildNamed(p, name, k) && y == p.commands[k];
      assert k == i;
    case None =>
      if child.name == name {
        assert p.commands[n].name == name;
        var y := FindCommand(p, name).value;
        var k :| FirstChildNamed(p, name, k) && y == p.commands[k];
        assert k == n;
      }
  }

  // ---------------------------------------------------------------------
  // Resolution

  /** Following a sequence of child names from `c`, with no flag test: the
      reference for what a resolved command path means. */
  function Descend(c: Command, path: seq<string>): Option<Command>
    decreases |path|
  {
    if |path| == 0 then Some(c)
    else match FindCommand(c, path[0])
      case None => None
      case Some(child) => Descend(child, path[1..])
  }

  /** Outcome of `getCurrentCommand`: the node reached, the number of path
      tokens consumed, and the error if an unknown name stopped the walk. */
  datatype Resolution = Resolution(node: Command, position: nat, err: Option<Error>)

  /** What a resolution of `args` from `c` must satisfy: the consumed prefix
      is non-flag tokens naming children level by level down to `node`, and
      the walk stops at the end, at a flag-shaped token, or at a non-flag
      token that names no child of `node` — the error case, which names it. */
  predicate IsResolution(c: Command, args: seq<string>, r: Resolution) {
    && r.position <= |args|
    && (forall k :: 0 <= k < r.position ==> !IsFlagArg(args[k]))
    && Descend(c, args[..r.position]) == Some(r.node)
    && (r.err.None? ==> r.position == |args| || IsFlagArg(args[r.position]))
    && (r.err.Some? ==>
          && r.position < |args|
          && !IsFlagArg(args[r.position])
          && FindCommand(r.node, args[r.position]).None?
          && r.err.value == CommandNotFound(args[r.position]))
  }

  /** `getCurrentCommand`: scan the tokens left to right, stop at the first
      flag-shaped one, and descend into the first child named by each other
      token; an unknown name ends the walk with an error. */
  function GetCurrentCommand(c: Command, args: seq<string>): (r: Resolution)
    ensures IsResolution(c, args, r)
    decreases |args|
  {
    if |args| == 0 || IsFlagArg(args[0]) then Resolution(c, 0, None)
    else match FindCommand(c, args[0])
      case None => Resolution(c, 0, Some(CommandNotFound(args[0])))
      case Some(child) =>
        var r := GetCurrentCommand(child, args[1..]);
        assert args[..r.position + 1][1..] == args[1..][..r.position];
        Resolution(r.node, r.position + 1, r.err)
  }

  /** A resolution from a child named by a leading non-flag token extends
      to one from the parent that consumes that token too. */
  lemma ResolutionStep(c: Command, args: seq<string>, child: Command, r: Resolution)
    requires |args| > 0 && !IsFlagArg(args[0]) && FindCommand(c, args[0]) == Some(child)
    requires IsResolution(child, args[1..], r)
    ensures IsResolution(c, args, Resolution(r.node, r.position + 1, r.err))
  {
    assert args[..r.position + 1][1..] == args[1..][..r.position];
  }

  /** The resolution is determined by its characterisation. */
  lemma {:induction false} ResolutionUnique(c: Command, args: seq<string>, r: Resolution)
    requires IsResolution(c, args, r)
    ensures r == GetCurrentCommand(c, args)
    decreases |args|
  {
    if r.position > 0 {
      var child := FindCommand(c, args[0]).value;
      assert args[..r.position][1..] == args[1..][..r.position - 1];
      ResolutionUnique(child, args[1..], Resolution(r.node, r.position - 1, r.err));
    }
  }

  /** Resolution never consumes more than the path and reaches a node that
      the consumed names actually lead to; a path of known names followed by
      nothing or a flag resolves without error to the node it names. */
  lemma ResolvesKnownPath(c: Command, path: seq<string>, rest: seq<string>, target: Command)
    requires forall k :: 0 <= k < |path| ==> !IsFlagArg(path[k])
    requires Descend(c, path) == Some(target)
    requires |rest| == 0 || IsFlagArg(rest[0])
    ensures GetCurrentCommand(c, path + rest) == Resolution(target, |path|, None)
  {
    var args := path + rest;
    assert args[..|path|] == path;
    ResolutionUnique(c, args, Resolution(target, |path|, None));
  }

  /** A node reached through at least one name is a proper descendant of the
      start, so it is never the start itself. */
  lemma {:induction false} DescendShrinks(c: Command, path: seq<string>, n: Command)
    requires |path| > 0 && Descend(c, path) == Some(n)
    ensures n < c
    decreases |path|
  {
    var child := FindCommand(c, path[0]).value;
    assert child in c.commands;
    if |path| > 1 {
      DescendShrinks(child, path[1..], n);
    }
  }

  /** The resolved node differs from the start exactly when a token was
      consumed. */
  lemma ResolvedNodeMoved(c: Command, args: seq<string>)
    ensures GetCurrentCommand(c, args).node != c <==> GetCurrentCommand(c, args).position > 0
  {
    var r := GetCurrentCommand(c, args);
    if r.position > 0 {
      DescendShrinks(c, args[..r.position], r.node);
    }
  }

  // ---------------------------------------------------------------------
  // Full parse

  /** `Parse`: resolve the command, then hand the tokens after the command
      path to that command's flag layer. The slice is guarded, as in the
      source, by the resolved node differing from the start. */
  function Parse(c: Command, args: seq<string>, layer: FlagLayer): (r: Result<Command, Error>)
    ensures var res := GetCurrentCommand(c, args);
      && (res.err.Some? ==> r == Failure(res.err.value))
      && (res.err.None? ==>
            match layer(res.node.flags, args[res.position..])
            case Failure(msg) => r == Failure(FlagError(msg))
            case Success(fs) => r == Success(res.node.(flags := fs)))
  {
    var res := GetCurrentCommand(c, args);
    if res.err.Some? then Failure(res.err.value)
    else
      var rest := if |args| > 0 && res.node != c then args[res.position..] else args;
      ResolvedNodeMoved(c, args);
      assert rest == args[res.position..];
      match layer(res.node.flags, rest)
      case Failure(msg) => Failure(FlagError(msg))
      case Success(fs) => Success(res.node.(flags := fs))
  }

  /** With a flag layer that only writes values, a successful parse keeps
      every name registered on the resolved command, with a value of the
      same kind, and names that shared a cell read the same value. */
  lemma ParseKeepsBindings(c: Command, args: seq<string>, layer: FlagLayer)
    requires WellBehaved(layer)
    requires Parse(c, args, layer).Success?
    ensures var n := GetCurrentCommand(c, args).node;
            var r := Parse(c, args, layer).value;
      && r.(flags := n.flags) == n
      && (forall a :: Registered(n, a) ==> Registered(r, a) && SameKind(CellValue(n, a), CellValue(r, a)))
      && (forall a, b :: Registered(n, a) && Registered(n, b) && n.flags.formal[a].cell == n.flags.formal[b].cell ==>
            CellValue(r, a) == CellValue(r, b))
  {
    var res := GetCurrentCommand(c, args);
    var fs := layer(res.node.flags, args[res.position..]);
    assert UpdatesValuesOnly(res.node.flags, fs.value);
  }

  // ---------------------------------------------------------------------
  // Help

  const CommandsHeader := "Commands: \n"
  const ParametersHeader := "Parameters: \n"
  const UsagePrefix := "Usage: "

  /** The fields of a sub-command line: `%-20s %s \n` of name and usage. */
  function CommandFields(x: Command): seq<string> {
    [PadRight(x.name, 20), " ", x.use, " \n"]
  }

  function CommandLine(x: Command): string {
    Join(CommandFields(x))
  }

  /** The fields of a parameter line: `--%s, -%-10s %-30s %s \n`. */
  function ParameterFields(p: Parameter): seq<string> {
    ["--", p.name, ", -", PadRight(p.shortname, 10), " ", PadRight(p.use, 30), " ", p.description, " \n"]
  }

  function ParameterLine(p: Parameter): string {
    Join(ParameterFields(p))
  }

  function CommandLines(c: Command): (ls: seq<string>)
    ensures |ls| == |c.commands|
    ensures forall i :: 0 <= i < |ls| ==> ls[i] == CommandLine(c.commands[i])
  {
    seq(|c.commands|, i requires 0 <= i < |c.commands| => CommandLine(c.commands[i]))
  }

  function ParameterLines(c: Command): (ls: seq<string>)
    ensures |ls| == |c.parameters|
    ensures forall i :: 0 <= i < |ls| ==> ls[i] == ParameterLine(c.parameters[i])
  {
    seq(|c.parameters|, i requires 0 <= i < |c.parameters| => ParameterLine(c.parameters[i]))
  }

  /** `Help`: the usage block, then the sub-command and parameter blocks,
      each empty when there is nothing to list. */
  function HelpOf(c: Command): (h: Help)
    ensures h.commands == "" <==> |c.commands| == 0
    ensures h.parameters == "" <==> |c.parameters| == 0
    ensures StartsWith(h.usage, UsagePrefix) && OccursAt(h.usage, c.use, |UsagePrefix|)
    ensures |h.usage| == |UsagePrefix| + |c.use| + 3
    ensures h.usage[|UsagePrefix| + |c.use|..] == " \n\n"
  {
    var h := Help(UsagePrefix + c.use + " \n\n",
                  Block(CommandsHeader, CommandLines(c)),
                  Block(ParametersHeader, ParameterLines(c)));
    assert (UsagePrefix + c.use + " \n\n")[|UsagePrefix|..|UsagePrefix| + |c.use|] == c.use;
    h
  }

  /** Each child's line appears in the sub-command block, after the header,
      in child order and back to back. */
  lemma HelpListsCommands(c: Command, i: nat)
    requires i < |c.commands|
    ensures StartsWith(HelpOf(c).commands, CommandsHeader)
    ensures OccursAt(HelpOf(c).commands, CommandLine(c.commands[i]),
                     |CommandsHeader| + Offset(CommandLines(c), i))
    ensures Offset(CommandLines(c), i + 1) == Offset(CommandLines(c), i) + |CommandLine(c.commands[i])|
    ensures |HelpOf(c).commands| == |CommandsHeader| + Offset(CommandLines(c), |c.commands|)
  {
    var ls := CommandLines(c);
    JoinLayout(ls, i);
    OccursAtShift(CommandsHeader, Join(ls), "", ls[i], Offset(ls, i));
    assert CommandsHeader + Join(ls) + "" == CommandsHeader + Join(ls);
  }

  /** Each parameter's line appears in the parameter block, after the
      header, in parameter order and back to back. */
  lemma HelpListsParameters(c: Command, i: nat)
    requires i < |c.parameters|
    ensures StartsWith(HelpOf(c).parameters, ParametersHeader)
    ensures OccursAt(HelpOf(c).parameters, ParameterLine(c.parameters[i]),
                     |ParametersHeader| + Offset(ParameterLines(c), i))
    ensures Offset(ParameterLines(c), i + 1) == Offset(ParameterLines(c), i) + |ParameterLine(c.parameters[i])|
    ensures |HelpOf(c).parameters| == |ParametersHeader| + Offset(ParameterLines(c), |c.parameters|)
  {
    var ls := ParameterLines(c);
    JoinLayout(ls, i);
    OccursAtShift(ParametersHeader, Join(ls), "", ls[i], Offset(ls, i));
    assert ParametersHeader + Join(ls) + "" == ParametersHeader + Join(ls);
  }

  /** A sub-command line starts with the child's name and shows its usage
      after the padded name column. */
  lemma CommandLineFields(x: Command)
    ensures OccursAt(CommandLine(x), x.name, 0)
    ensures OccursAt(CommandLine(x), x.use, (if |x.name| >= 20 then |x.name| else 20) + 1)
    ensures EndsWith(CommandLine(x), " \n")
  {
    var fs := CommandFields(x);
    JoinLayout(fs, 0);
    JoinLayout(fs, 1);
    JoinLayout(fs, 2);
    JoinLayout(fs, 3);
    assert fs[..0] == [] && fs[..1] == [fs[0]] && fs[..1][..0] == [];
    OccursAtTrans(CommandLine(x), fs[0], x.name, 0, 0);
  }

  /** Column of the usage in a parameter line: after `--`, the name, `, -`,
      the short alias padded to 10 and a space. */
  function UsageColumn(p: Parameter): nat {
    |p.name| + 5 + (if |p.shortname| >= 10 then |p.shortname| else 10) + 1
  }

  /** Column of the description: after the usage padded to 30 and a space. */
  function DescriptionColumn(p: Parameter): nat {
    UsageColumn(p) + (if |p.use| >= 30 then |p.use| else 30) + 1
  }

  /** Where each field of a parameter line starts. */
  lemma ParameterFieldOffsets(p: Parameter)
    ensures var fs := ParameterFields(p);
      && Offset(fs, 0) == 0 && Offset(fs, 1) == 2 && Offset(fs, 2) == |p.name| + 2
      && Offset(fs, 3) == |p.name| + 5 && Offset(fs, 5) == UsageColumn(p)
      && Offset(fs, 7) == DescriptionColumn(p)
  {
    var fs := ParameterFields(p);
    assert fs[..0] == [];
    OffsetStep(fs, 0);
    OffsetStep(fs, 1);
    OffsetStep(fs, 2);
    OffsetStep(fs, 3);
    OffsetStep(fs, 4);
    OffsetStep(fs, 5);
    OffsetStep(fs, 6);
  }

  /** A parameter line shows the name after `--`, the short alias after
      `, -`, and the usage and description in their padded columns. */
  lemma ParameterLineFields(p: Parameter)
    ensures OccursAt(ParameterLine(p), "--", 0)
    ensures OccursAt(ParameterLine(p), p.name, 2)
    ensures OccursAt(ParameterLine(p), ", -", |p.name| + 2)
    ensures OccursAt(ParameterLine(p), p.shortname, |p.name| + 5)
    ensures OccursAt(ParameterLine(p), p.use, UsageColumn(p))
    ensures OccursAt(ParameterLine(p), p.description, DescriptionColumn(p))
    ensures EndsWith(ParameterLine(p), " \n")
  {
    var fs := ParameterFields(p);
    var line := ParameterLine(p);
    ParameterFieldOffsets(p);
    JoinLayout(fs, 0);
    JoinLayout(fs, 1);
    JoinLayout(fs, 2);
    JoinLayout(fs, 3);
    JoinLayout(fs, 5);
    JoinLayout(fs, 7);
    JoinLayout(fs, 8);
    OccursAtTrans(line, fs[3], p.shortname, Offset(fs, 3), 0);
    OccursAtTrans(line, fs[5], p.use, Offset(fs, 5), 0);
  }

  /** Every parameter's description can be read in its command's help. */
  lemma HelpShowsDescription(c: Command, i: nat)
    requires i < |c.parameters|
    ensures Contains(HelpOf(c).parameters, c.parameters[i].description)
  {
    var p := c.parameters[i];
    HelpListsParameters(c, i);
    ParameterLineFields(p);
    var at := |ParametersHeader| + Offset(ParameterLines(c), i);
    OccursAtTrans(HelpOf(c).parameters, ParameterLine(p), p.description, at, DescriptionColumn(p));
  }

  // ---------------------------------------------------------------------
  // Help dispatch and execution

  /** `FindHelp`: help is produced only for the keyword `help`, either for
      this command or for the command the remaining tokens resolve to. The
      early return on empty arguments makes the source's later test for a
      handler-less command with empty arguments unreachable: the body keeps
      that test, and the contract shows it never yields help. */
  function FindHelp(c: Command, args: seq<string>): (r: Result<Option<Help>, Error>)
    ensures |args| == 0 ==> r == Success(None)
    ensures |args| > 0 && args[0] != "help" ==> r == Success(None)
    ensures args == ["help"] ==> r == Success(Some(HelpOf(c)))
    ensures |args| > 1 && args[0] == "help" ==>
      var res := GetCurrentCommand(c, args[1..]);
      r == if res.err.Some? then Failure(res.err.value) else Success(Some(HelpOf(res.node)))
  {
    if |args| == 0 then Success(None)
    else
      var help := if |args| == 0 && c.handler.None? then Some(HelpOf(c)) else None;
      if args[0] == "help" then
        if |args| == 1 then Success(Some(HelpOf(c)))
        else
          var res := GetCurrentCommand(c, args[1..]);
          if res.err.Some? then Failure(res.err.value) else Success(Some(HelpOf(res.node)))
      else Success(help)
  }

  /** A handler invocation: which handler ran, and on which command. */
  datatype Call = Call(handler: HandlerId, target: Command)

  /** `Run`: invoke the handler once with the command itself, or fail with
      an error naming the command when it has none. */
  function Run(c: Command): (r: Result<Call, Error>)
    ensures r.Failure? <==> c.handler.None?
    ensures r.Failure? ==> r.error == CommandHandlerNotFound(c.name) && StartsWith(Message(r.error), c.name)
    ensures r.Success? ==> r.value.target == c && Some(r.value.handler) == c.handler
  {
    match c.handler
    case None => Failure(CommandHandlerNotFound(c.name))
    case Some(h) => Success(Call(h, c))
  }

  /** After `Do`, running the command calls exactly that handler. */
  lemma RunAfterDo(c: Command, h: HandlerId)
    ensures Run(Do(c, h)) == Success(Call(h, Do(c, h)))
  {
  }

  // ---------------------------------------------------------------------
  // Parameter binding

  /** Go's `Var` panics on a redefined flag name: both aliases must be new
      and differ from each other. */
  predicate FreshAliases(fs: FlagSet, p: Parameter) {
    p.name != p.shortname && p.name !in fs.formal && p.shortname !in fs.formal
  }

  /** `c2` is `c` after binding parameter `p` to `cell` with default `v`: the
      descriptor is appended, both aliases lead to that one cell, the cell
      holds the default, and nothing else changes. */
  predicate Binds(c: Command, c2: Command, p: Parameter, cell: CellId, v: Value) {
    && c2.parameters == c.parameters + [p]
    && c2.(parameters := c.parameters, flags := c.flags) == c
    && c2.flags.name == c.flags.name
    && c2.flags.formal.Keys == c.flags.formal.Keys + {p.name, p.shortname}
    && (forall a :: a in Aliases(p) ==> c2.flags.formal[a] == Flag(cell, p.use))
    && (forall n :: n in c.flags.formal ==> c2.flags.formal[n] == c.flags.formal[n])
    && c2.flags.store.Keys == c.flags.store.Keys + {cell}
    && c2.flags.store[cell] == v
    && (forall k :: k in c.flags.store && k != cell ==> c2.flags.store[k] == c.flags.store[k])
  }

  /** `addParameter` followed by one registration per alias. */
  function Bind(c: Command, p: Parameter, cell: CellId, v: Value): (r: Command)
    requires FreshAliases(c.flags, p)
    ensures Binds(c, r, p, cell, v)
    ensures c.flags.Valid() ==> r.flags.Valid()
  {
    var withParam := c.(parameters := c.parameters + [p]);
    var names := Aliases(p);
    assert (set n | n in names) == {p.name, p.shortname};
    withParam.(flags := DefineAll(c.flags, names, cell, v, p.use))
  }

  /** As written, two parameters without a short alias cannot both be
      bound on one command: the first registers the flag name `""`, so the
      second's registration is a redefinition, on which Go's `Var` panics. */
  lemma ShortlessParametersClash(c: Command, p: Parameter, q: Parameter, cell: CellId, v: Value)
    requires FreshAliases(c.flags, p) && p.shortname == "" && q.shortname == ""
    ensures "" in Bind(c, p, cell, v).flags.formal
    ensures !FreshAliases(Bind(c, p, cell, v).flags, q)
  {
  }

  /** The aliases a parameter means to register are all new and distinct. */
  predicate FreshGivenAliases(fs: FlagSet, p: Parameter) {
    p.name != p.shortname && forall a :: a in GivenAliases(p) ==> a !in fs.formal
  }

  /** Binding that registers only the aliases a parameter has: the
      descriptor is appended, the name and a non-empty short alias lead to
      one cell holding the default, and nothing else changes. */
  function BindCorrected(c: Command, p: Parameter, cell: CellId, v: Value): (r: Command)
    requires FreshGivenAliases(c.flags, p)
    ensures r.parameters == c.parameters + [p]
    ensures r.(parameters := c.parameters, flags := c.flags) == c
    ensures r.flags.name == c.flags.name
    ensures r.flags.formal.Keys == c.flags.formal.Keys + set a | a in GivenAliases(p)
    ensures forall a :: a in GivenAliases(p) ==> r.flags.formal[a] == Flag(cell, p.use)
    ensures forall n :: n in c.flags.formal ==> r.flags.formal[n] == c.flags.formal[n]
    ensures r.flags.store.Keys == c.flags.store.Keys + {cell} && r.flags.store[cell] == v
    ensures forall k :: k in c.flags.store && k != cell ==> r.flags.store[k] == c.flags.store[k]
    ensures c.flags.Valid() ==> r.flags.Valid()
  {
    var withParam := c.(parameters := c.parameters + [p]);
    withParam.(flags := DefineAll(c.flags, GivenAliases(p), cell, v, p.use))
  }

  /** With the corrected binding, parameters without a short alias coexist:
      each is registered under its own name on its own cell, and the empty
      flag name is never registered. */
  lemma ShortlessParametersCoexist(c: Command, p: Parameter, q: Parameter, cp: CellId, cq: CellId, vp: Value, vq: Value)
    requires p.shortname == "" && q.shortname == ""
    requires p.name != "" && q.name != "" && p.name != q.name
    requires p.name !in c.flags.formal && q.name !in c.flags.formal && "" !in c.flags.formal
    ensures FreshGivenAliases(c.flags, p)
    ensures FreshGivenAliases(BindCorrected(c, p, cp, vp).flags, q)
    ensures var c2 := BindCorrected(BindCorrected(c, p, cp, vp), q, cq, vq);
      && "" !in c2.flags.formal
      && c2.flags.formal[p.name].cell == cp && c2.flags.formal[q.name].cell == cq
      && c2.parameters == c.parameters + [p, q]
  {
    var c1 := BindCorrected(c, p, cp, vp);
    assert p.name in GivenAliases(p) && q.name in GivenAliases(q);
    assert c1.flags.formal.Keys == c.flags.formal.Keys + {p.name};
  }

  function AddBoolParameter(c: Command, p: Parameter, cell: CellId, default: bool): (r: (Command, Parameter))
    requires FreshAliases(c.flags, p)
    ensures Binds(c, r.0, p, cell, B(default)) && r.1 == p
    ensures c.flags.Valid() ==> r.0.flags.Valid()
  {
    (Bind(c, p, cell, B(default)), p)
  }

  function AddIntParameter(c: Command, p: Parameter, cell: CellId, default: Int64): (r: (Command, Parameter))
    requires FreshAliases(c.flags, p)
    ensures Binds(c, r.0, p, cell, I(default)) && r.1 == p
    ensures c.flags.Valid() ==> r.0.flags.Valid()
  {
    (Bind(c, p, cell, I(default)), p)
  }

  function AddStringParameter(c: Command, p: Parameter, cell: CellId, default: string): (r: (Command, Parameter))
    requires FreshAliases(c.flags, p)
    ensures Binds(c, r.0, p, cell, S(default)) && r.1 == p
    ensures c.flags.Valid() ==> r.0.flags.Valid()
  {
    (Bind(c, p, cell, S(default)), p)
  }

  /** A registered name leads to a cell holding a value. */
  lemma BindRegistersAliases(c: Command, p: Parameter, cell: CellId, v: Value, c2: Command)
    requires Binds(c, c2, p, cell, v)
    ensures forall a :: a in Aliases(p) ==> Registered(c2, a) && CellValue(c2, a) == v
  {
  }

  /** A bound boolean reads back as its default under either alias. */
  lemma BoolDefaultReadsBack(c: Command, p: Parameter, cell: CellId, default: bool)
    requires FreshAliases(c.flags, p)
    ensures var c2 := AddBoolParameter(c, p, cell, default).0;
      forall a :: a in Aliases(p) ==> Registered(c2, a) && GetBool(c2, a) == Success(default)
  {
    BindRegistersAliases(c, p, cell, B(default), AddBoolParameter(c, p, cell, default).0);
  }

  /** A bound integer reads back as its default under either alias. */
  lemma IntDefaultReadsBack(c: Command, p: Parameter, cell: CellId, default: Int64)
    requires FreshAliases(c.flags, p)
    ensures var c2 := AddIntParameter(c, p, cell, default).0;
      forall a :: a in Aliases(p) ==> Registered(c2, a) && GetInt(c2, a) == Success(default)
  {
    BindRegistersAliases(c, p, cell, I(default), AddIntParameter(c, p, cell, default).0);
  }

  /** A bound string reads back as its default under either alias, except
      that an empty default reads as a missing parameter. */
  lemma StringDefaultReadsBack(c: Command, p: Parameter, cell: CellId, default: string)
    requires FreshAliases(c.flags, p)
    ensures var c2 := AddStringParameter(c, p, cell, default).0;
      forall a :: a in Aliases(p) ==>
        (Registered(c2, a) &&
         GetString(c2, a) == if default == "" then Failure(ParameterNotFound) else Success(default))
  {
    BindRegistersAliases(c, p, cell, S(default), AddStringParameter(c, p, cell, default).0);
  }

  /** The parameter tests' chain: after binding, a flag layer that only
      writes values leaves both aliases registered on one cell, so they read
      the same value, of the kind that was bound. */
  lemma BindThenParse(c: Command, p: Parameter, cell: CellId, v: Value, c2: Command,
                      layer: FlagLayer, tokens: seq<string>)
    requires Binds(c, c2, p, cell, v)
    requires WellBehaved(layer) && layer(c2.flags, tokens).Success?
    ensures var c3 := c2.(flags := layer(c2.flags, tokens).value);
      && Registered(c3, p.name) && Registered(c3, p.shortname)
      && CellValue(c3, p.name) == CellValue(c3, p.shortname)
      && SameKind(CellValue(c3, p.name), v)
  {
    var fs := layer(c2.flags, tokens).value;
    assert UpdatesValuesOnly(c2.flags, fs);
    assert p.name in Aliases(p) && p.shortname in Aliases(p);
  }

  // ---------------------------------------------------------------------
  // Typed retrieval

  /** `Lookup(name)` finds a flag whose cell holds a value; the getters
      dereference the lookup unchecked, so an unknown name is a panic. */
  predicate Registered(c: Command, name: string) {
    name in c.flags.formal && c.flags.formal[name].cell in c.flags.store
  }

  /** The value in the cell a registered name leads to. */
  function CellValue(c: Command, name: string): Value
    requires Registered(c, name)
  {
    c.flags.store[c.flags.formal[name].cell]
  }

  /** `GetString`: the cell's text, with empty text reported as a missing
      parameter. */
  function GetString(c: Command, name: string): (r: Result<string, Error>)
    requires Registered(c, name)
    ensures r.Failure? <==> CellValue(c, name) == S("")
    ensures r.Failure? ==> r.error == ParameterNotFound
    ensures r.Success? ==> r.value == Text(CellValue(c, name)) && r.value != ""
  {
    var value := Text(c.flags.store[c.flags.formal[name].cell]);
    if value == "" then Failure(ParameterNotFound) else Success(value)
  }

  /** `GetInt`: the cell's text converted by `Atoi`. */
  function GetInt(c: Command, name: string): (r: Result<Int64, Error>)
    requires Registered(c, name)
    ensures r == Failure(ParameterNotFound) <==> CellValue(c, name) == S("")
    ensures CellValue(c, name).I? ==> r == Success(CellValue(c, name).i)
    ensures CellValue(c, name).B? ==> r == Failure(NotAnInt(Text(CellValue(c, name))))
    ensures CellValue(c, name).S? && CellValue(c, name).s != "" ==>
      r == match Atoi(CellValue(c, name).s)
           case Some(n) => Success(n)
           case None => Failure(NotAnInt(CellValue(c, name).s))
  {
    var value := Text(c.flags.store[c.flags.formal[name].cell]);
    if value == "" then Failure(ParameterNotFound)
    else match Atoi(value)
      case Some(n) => Success(n)
      case None => Failure(NotAnInt(value))
  }

  /** `GetBool`: the cell's text converted by `ParseBool`. */
  function GetBool(c: Command, name: string): (r: Result<bool, Error>)
    requires Registered(c, name)
    ensures r == Failure(ParameterNotFound) <==> CellValue(c, name) == S("")
    ensures CellValue(c, name).B? ==> r == Success(CellValue(c, name).b)
    ensures CellValue(c, name).I? ==>
      r == if CellValue(c, name).i == 0 then Success(false)
           else if CellValue(c, name).i == 1 then Success(true)
           else Failure(NotABool(Itoa(CellValue(c, name).i)))
    ensures CellValue(c, name).S? && CellValue(c, name).s != "" ==>
      r == match ParseBool(CellValue(c, name).s)
           case Some(b) => Success(b)
           case None => Failure(NotABool(CellValue(c, name).s))
  {
    var value := Text(c.flags.store[c.flags.formal[name].cell]);
    if value == "" then Failure(ParameterNotFound)
    else match ParseBool(value)
      case Some(b) => Success(b)
      case None => Failure(NotABool(value))
  }
}

=== FILE: configurator.dfy ===
/** The older front end of configurator.go: a record holding the argument
    vector and the main command, with its own copy of the tree walk, its own
    help dispatch and an `Initialize` that parses flags and runs the handler.
    It shares the command tree of command.go but declares its own flag-shape
    predicate and error values, so it is a module of its own. */
module Configurators {
  import opened Wrappers
  import opened FlagSets
  import opened Helps
  import opened Utf8
  import C = Commands

  /** `Configurator`: the argument vector and the main command, which is
      absent until `SetMainCommand` is called. */
  datatype Configurator = Configurator(args: seq<string>, command: Option<C.Command>)

  function NewConfigurator(args: seq<string>): (cfg: Configurator)
    ensures cfg.args == args && cfg.command.None?
  {
    Configurator(args, None)
  }

  function SetMainCommand(cfg: Configurator, command: C.Command): (r: Configurator)
    ensures r.command == Some(command) && r.args == cfg.args
  {
    cfg.(command := Some(command))
  }

  /** This file's copy of the flag-shape test, read on characters as in
      command.go's copy. */
  function IsFlagArg(arg: string): (r: bool)
    ensures r <==> C.FlagShapedBytes(Encode(arg))
  {
    EncodeFront(arg);
    (|arg| >= 3 && arg[0] as int < 0x80 && arg[1] == '-') || (|arg| >= 2 && arg[0] == '-' && arg[1] != '-')
  }

  /** The two copies of the flag-shape test agree on every token. */
  lemma IsFlagArgAgrees(arg: string)
    ensures IsFlagArg(arg) <==> C.IsFlagArg(arg)
  {
  }

  /** Outcome of `ParseCommand`: the node reached and the error, if any. */
  datatype Walked = Walked(node: C.Command, err: Option<C.Error>)

  /** The loop of `ParseCommand`, from the node reached so far: for some
      number of consumed tokens, its outcome meets command.go's resolution
      characterisation. */
  function Walk(current: C.Command, args: seq<string>): (r: Walked)
    ensures exists k :: C.IsResolution(current, args, C.Resolution(r.node, k, r.err))
    decreases |args|
  {
    if |args| == 0 || IsFlagArg(args[0]) then
      assert C.IsResolution(current, args, C.Resolution(current, 0, None));
      Walked(current, None)
    else match C.FindCommand(current, args[0])
      case None =>
        assert C.IsResolution(current, args, C.Resolution(current, 0, Some(C.CommandNotFound(args[0]))));
        Walked(current, Some(C.CommandNotFound(args[0])))
      case Some(child) =>
        var r := Walk(child, args[1..]);
        var k: nat :| C.IsResolution(child, args[1..], C.Resolution(r.node, k, r.err));
        C.ResolutionStep(current, args, child, C.Resolution(r.node, k, r.err));
        r
  }

  /** The configurator's walk reaches the node and error of command.go's
      `getCurrentCommand`. */
  lemma {:induction false} WalkAgrees(current: C.Command, args: seq<string>)
    ensures Walk(current, args).node == C.GetCurrentCommand(current, args).node
    ensures Walk(current, args).err == C.GetCurrentCommand(current, args).err
    decreases |args|
  {
    if |args| > 0 && !IsFlagArg(args[0]) && C.FindCommand(current, args[0]).Some? {
      WalkAgrees(C.FindCommand(current, args[0]).value, args[1..]);
    }
  }

  /** `ParseCommand`: walk from the main command, stop at the first
      flag-shaped token, descend by name, and on an unknown name return the
      deepest node reached with an error naming the token. */
  function ParseCommand(cfg: Configurator, args: seq<string>): (r: Walked)
    requires cfg.command.Some?
    ensures exists k :: C.IsResolution(cfg.command.value, args, C.Resolution(r.node, k, r.err))
  {
    var r := Walk(cfg.command.value, args);
    WalkAgrees(cfg.command.value, args);
    assert C.IsResolution(cfg.command.value, args,
      C.Resolution(r.node, C.GetCurrentCommand(cfg.command.value, args).position, r.err));
    r
  }

  /** `FindHelp`: the main command's help when there are no arguments and no
      handler, or for the keyword `help` alone; the resolved command's help
      for `help` followed by a path; nothing otherwise. */
  function FindHelp(cfg: Configurator): (r: Result<Option<Help>, C.Error>)
    requires cfg.command.Some?
    ensures var main := cfg.command.value;
      && (|cfg.args| == 0 ==> r == Success(if main.handler.None? then Some(C.HelpOf(main)) else None))
      && (|cfg.args| > 0 && cfg.args[0] != "help" ==> r == Success(None))
      && (cfg.args == ["help"] ==> r == Success(Some(C.HelpOf(main))))
      && (|cfg.args| > 1 && cfg.args[0] == "help" ==>
            var w := ParseCommand(cfg, cfg.args[1..]);
            r == if w.err.Some? then Failure(w.err.value) else Success(Some(C.HelpOf(w.node))))
  {
    var main := cfg.command.value;
    var help := if |cfg.args| == 0 && main.handler.None? then Some(C.HelpOf(main)) else None;
    if |cfg.args| > 0 && cfg.args[0] == "help" then
      if |cfg.args| == 1 then Success(Some(C.HelpOf(main)))
      else
        var w := ParseCommand(cfg, cfg.args[1..]);
        if w.err.Some? then Failure(w.err.value) else Success(Some(C.HelpOf(w.node)))
    else Success(help)
  }

  /** The two help dispatchers agree whenever there are arguments; on empty
      arguments only this one can show help, and it does so exactly when
      the main command has no handler. */
  lemma FindHelpAgreement(cfg: Configurator)
    requires cfg.command.Some?
    ensures |cfg.args| > 0 ==> FindHelp(cfg) == C.FindHelp(cfg.command.value, cfg.args)
    ensures |cfg.args| == 0 ==>
      (FindHelp(cfg) == C.FindHelp(cfg.command.value, cfg.args) <==> cfg.command.value.handler.Some?)
  {
    if |cfg.args| > 1 {
      WalkAgrees(cfg.command.value, cfg.args[1..]);
    }
  }

  /** The tokens `Initialize` hands to the flag layer: none when there are no
      arguments (the layer is not called), all of them when there is one,
      and all but the first otherwise, however deep the resolution went. */
  function InitializeTokens(args: seq<string>): (t: Option<seq<string>>)
    ensures t.None? <==> |args| == 0
    ensures t.Some? ==> |t.value| == if |args| == 1 then 1 else |args| - 1
    ensures t.Some? ==> t.value == args[|args| - |t.value|..]
  {
    if |args| == 0 then None
    else if |args| == 1 then Some(args)
    else Some(args[1..])
  }

  /** Resolution succeeds and, when the flag layer is called with `tokens`,
      it succeeds too: the run reaches the handler call. */
  predicate ReachesHandler(cfg: Configurator, layer: FlagLayer, tokens: Option<seq<string>>)
    requires cfg.command.Some?
  {
    var w := ParseCommand(cfg, cfg.args);
    w.err.None? && (tokens.None? || layer(w.node.flags, tokens.value).Success?)
  }

  /** The handler is called without a nil check, so a run that reaches the
      call must have resolved to a command that has one. */
  predicate HandlerPresentWhenReached(cfg: Configurator, layer: FlagLayer, tokens: Option<seq<string>>)
    requires cfg.command.Some?
  {
    ReachesHandler(cfg, layer, tokens) ==> ParseCommand(cfg, cfg.args).node.handler.Some?
  }

  /** `Initialize` as written: resolve, fail fast on a resolution error, hand
      `InitializeTokens(args)` to the resolved command's flag layer, fail on
      its error, then call the handler with the parsed command. */
  function Initialize(cfg: Configurator, layer: FlagLayer): (r: Result<C.Call, C.Error>)
    requires cfg.command.Some?
    requires HandlerPresentWhenReached(cfg, layer, InitializeTokens(cfg.args))
    ensures var w := ParseCommand(cfg, cfg.args);
            var t := InitializeTokens(cfg.args);
      && (w.err.Some? ==> r == Failure(w.err.value))
      && (w.err.None? && t.Some? && layer(w.node.flags, t.value).Failure? ==>
            r == Failure(C.FlagError(layer(w.node.flags, t.value).error)))
      && (r.Success? <==> ReachesHandler(cfg, layer, t))
      && (r.Success? ==>
            && Some(r.value.handler) == w.node.handler
            && r.value.target == w.node.(flags := if t.None? then w.node.flags else layer(w.node.flags, t.value).value))
  {
    var w := ParseCommand(cfg, cfg.args);
    if w.err.Some? then Failure(w.err.value)
    else if |cfg.args| > 0 then
      var args := if |cfg.args| == 1 then cfg.args else cfg.args[1..];
      match layer(w.node.flags, args)
      case Failure(msg) => Failure(C.FlagError(msg))
      case Success(fs) =>
        var cmd := w.node.(flags := fs);
        Success(C.Call(cmd.handler.value, cmd))
    else Success(C.Call(w.node.handler.value, w.node))
  }

  /** The as-written slicing loses a flag: a main command with no children
      given `--message hi` resolves to itself without consuming a token, yet
      its flag layer is handed only `hi`. */
  lemma InitializeDropsLeadingFlag(main: C.Command)
    requires |main.commands| == 0
    ensures var cfg := Configurator(["--message", "hi"], Some(main));
      && C.GetCurrentCommand(main, cfg.args).position == 0
      && InitializeTokens(cfg.args) == Some(["hi"])
      && InitializeTokens(cfg.args) != Some(cfg.args[C.GetCurrentCommand(main, cfg.args).position..])
  {
    var args := ["--message", "hi"];
    assert C.IsFlagArg(args[0]);
    assert args[1..] == ["hi"];
  }

  /** The tokens after the command path: what the flag layer should see. */
  function CorrectedTokens(cfg: Configurator): (t: Option<seq<string>>)
    requires cfg.command.Some?
    ensures t.None? <==> |cfg.args| == 0
    ensures t.Some? ==> |t.value| <= |cfg.args|
    ensures t.Some? ==> forall k :: 0 <= k < |cfg.args| - |t.value| ==> !IsFlagArg(cfg.args[k])
    ensures t.Some? && |t.value| > 0 && ParseCommand(cfg, cfg.args).err.None? ==> IsFlagArg(t.value[0])
    ensures t.Some? ==> t.value == cfg.args[|cfg.args| - |t.value|..]
  {
    var res := C.GetCurrentCommand(cfg.command.value, cfg.args);
    WalkAgrees(cfg.command.value, cfg.args);
    if |cfg.args| == 0 then None else Some(cfg.args[res.position..])
  }

  /** `Initialize` with the flag layer handed exactly the tokens after the
      resolved command path. */
  function InitializeCorrected(cfg: Configurator, layer: FlagLayer): (r: Result<C.Call, C.Error>)
    requires cfg.command.Some?
    requires HandlerPresentWhenReached(cfg, layer, CorrectedTokens(cfg))
    ensures r.Success? <==> ReachesHandler(cfg, layer, CorrectedTokens(cfg))
    ensures |cfg.args| > 0 ==>
      match C.Parse(cfg.command.value, cfg.args, layer)
      case Failure(e) => r == Failure(e)
      case Success(cmd) => r.Success? && r.value.target == cmd && Some(r.value.handler) == cmd.handler
  {
    var w := ParseCommand(cfg, cfg.args);
    WalkAgrees(cfg.command.value, cfg.args);
    var t := CorrectedTokens(cfg);
    if w.err.Some? then Failure(w.err.value)
    else if t.Some? then
      match layer(w.node.flags, t.value)
      case Failure(msg) => Failure(C.FlagError(msg))
      case Success(fs) =>
        var cmd := w.node.(flags := fs);
        Success(C.Call(cmd.handler.value, cmd))
    else Success(C.Call(w.node.handler.value, w.node))
  }
}

=== FILE: flagset.dfy ===
/** The per-command flag namespace: Go's `flag.FlagSet` as far as the core
    touches it. Every registered flag name points at a value cell; several
    names may share a cell, which is how a long name and its short alias end
    up writing the same variable. */
module FlagSets {
  import opened Wrappers
  import opened Strconv

  /** The address of a caller-owned variable (`*bool`, `*int`, `*string`). */
  type CellId = nat

  /** The content of a cell, by the kind of variable it is. */
  datatype Value = B(b: bool) | I(i: Int64) | S(s: string)

  /** What the flag value's `String()` method prints for a cell: text that
      is empty only for an empty string, and that `ParseBool` or `Atoi`
      reads back as the boolean or integer the cell holds. */
  function Text(v: Value): (r: string)
    ensures r == "" <==> v == S("")
    ensures v.B? ==> ParseBool(r) == Some(v.b)
    ensures v.I? ==> Atoi(r) == Some(v.i)
    ensures v.S? ==> r == v.s
  {
    match v
    case B(b) => ParseBoolFormatBool(b); FormatBool(b)
    case I(i) => AtoiItoa(i); Itoa(i)
    case S(s) => s
  }

  /** One registered flag: the cell it writes and its usage line. */
  datatype Flag = Flag(cell: CellId, usage: string)

  datatype FlagSet = FlagSet(name: string, formal: map<string, Flag>, store: map<CellId, Value>)
  {
    /** Every registered flag points at a cell that holds a value. */
    predicate Valid() {
      forall n :: n in formal ==> formal[n].cell in store
    }
  }

  /** `flag.NewFlagSet(name, ContinueOnError)`. */
  function NewFlagSet(name: string): (fs: FlagSet)
    ensures fs.name == name && fs.Valid()
    ensures forall n :: n !in fs.formal
  {
    FlagSet(name, map[], map[])
  }

  /** The primitive token parser (`FlagSet.Parse`): it either fails with a
      message or yields the flag set with its cells updated. Its grammar is
      not part of this model, so it is taken as a parameter. */
  type FlagLayer = (FlagSet, seq<string>) -> Result<FlagSet, string>

  /** Two values of the same kind of variable. */
  predicate SameKind(a: Value, b: Value) {
    (a.B? && b.B?) || (a.I? && b.I?) || (a.S? && b.S?)
  }

  /** What `FlagSet.Parse` may change: the values in the cells of registered
      flags, each written through its flag's typed setter. No flag or cell is
      added, removed or renamed. */
  predicate UpdatesValuesOnly(fs: FlagSet, fs2: FlagSet) {
    && fs2.name == fs.name
    && fs2.formal == fs.formal
    && fs2.store.Keys == fs.store.Keys
    && forall k :: k in fs.store ==> SameKind(fs.store[k], fs2.store[k])
  }

  /** A flag layer that behaves like `FlagSet.Parse` in that respect. */
  ghost predicate WellBehaved(layer: FlagLayer) {
    forall fs, tokens :: layer(fs, tokens).Success? ==> UpdatesValuesOnly(fs, layer(fs, tokens).value)
  }

  /** Registering a cell under a list of names, each of which must be new
      (Go's `Var` panics on a redefined name), and seeding the cell with its
      default — the loop over aliases in the `Add*Parameter` binders. */
  function DefineAll(fs: FlagSet, names: seq<string>, cell: CellId, default: Value, usage: string): (r: FlagSet)
    requires forall i :: 0 <= i < |names| ==> names[i] !in fs.formal
    requires forall i, j :: 0 <= i < j < |names| ==> names[i] != names[j]
    ensures r.name == fs.name
    ensures r.formal.Keys == fs.formal.Keys + set n | n in names
    ensures forall i :: 0 <= i < |names| ==> r.formal[names[i]] == Flag(cell, usage)
    ensures forall n :: n in fs.formal ==> r.formal[n] == fs.formal[n]
    ensures |names| > 0 ==> r.store.Keys == fs.store.Keys + {cell} && r.store[cell] == default
    ensures |names| == 0 ==> r.store == fs.store
    ensures forall k :: k in fs.store && k != cell ==> r.store[k] == fs.store[k]
    ensures fs.Valid() ==> r.Valid()
    decreases |names|
  {
    if |names| == 0 then fs
    else
      var fs' := FlagSet(fs.name, fs.formal[names[0] := Flag(cell, usage)], fs.store[cell := default]);
      DefineAll(fs', names[1..], cell, default, usage)
  }
}

=== FILE: help.dfy ===
/** The help record (help.go) and the text layout helpers used to fill it:
    Go's `%-Ns` padding and the concatenation of one line per entry. */
module Helps {

  /** Three render-ready text blocks: usage, sub-command list, parameter list. */
  datatype Help = Help(usage: string, commands: string, parameters: string)

  /** `t` appears in `s` starting at index `k`. */
  predicate OccursAt(s: string, t: string, k: int) {
    0 <= k && k + |t| <= |s| && s[k..k + |t|] == t
  }

  predicate StartsWith(s: string, prefix: string) {
    OccursAt(s, prefix, 0)
  }

  predicate EndsWith(s: string, suffix: string) {
    OccursAt(s, suffix, |s| - |suffix|)
  }

  ghost predicate Contains(s: string, t: string) {
    exists k :: OccursAt(s, t, k)
  }

  function Spaces(n: nat): (r: string)
    ensures |r| == n && forall i :: 0 <= i < n ==> r[i] == ' '
  {
    seq(n, _ => ' ')
  }

  /** Go's `%-Ns` verb: left-justify in a field of width `w`, never truncate. */
  function PadRight(s: string, w: nat): (r: string)
    ensures |r| == if |s| >= w then |s| else w
    ensures OccursAt(r, s, 0)
    ensures forall i :: |s| <= i < |r| ==> r[i] == ' '
  {
    if |s| >= w then s else s + Spaces(w - |s|)
  }

  /** The lines written one after another. */
  function Join(lines: seq<string>): string
  {
    if |lines| == 0 then "" else lines[0] + Join(lines[1..])
  }

  /** Total length of the lines: the reference for where each line starts. */
  function TotalLength(lines: seq<string>): nat
  {
    if |lines| == 0 then 0 else TotalLength(lines[..|lines| - 1]) + |lines[|lines| - 1]|
  }

  /** Where line `i` starts once the lines are joined. */
  function Offset(lines: seq<string>, i: nat): nat
    requires i <= |lines|
  {
    TotalLength(lines[..i])
  }

  /** A block with a header line, empty when there is nothing to list. */
  function Block(header: string, lines: seq<string>): string
  {
    if |lines| == 0 then "" else header + Join(lines)
  }

  lemma {:induction false} JoinAppend(a: seq<string>, b: seq<string>)
    ensures Join(a + b) == Join(a) + Join(b)
  {
    if |a| == 0 {
      assert a + b == b;
    } else {
      assert (a + b)[1..] == a[1..] + b;
      JoinAppend(a[1..], b);
    }
  }

  lemma {:induction false} JoinLength(lines: seq<string>)
    ensures |Join(lines)| == TotalLength(lines)
  {
    if |lines| > 0 {
      var n := |lines| - 1;
      assert lines == lines[..n] + [lines[n]];
      JoinAppend(lines[..n], [lines[n]]);
      JoinLength(lines[..n]);
    }
  }

  /** Joining lays the lines out back to back, in order, with nothing
      between them and nothing after the last. */
  lemma JoinLayout(lines: seq<string>, i: nat)
    requires i < |lines|
    ensures OccursAt(Join(lines), lines[i], Offset(lines, i))
    ensures Offset(lines, i + 1) == Offset(lines, i) + |lines[i]|
    ensures |Join(lines)| == Offset(lines, |lines|)
  {
    assert lines == lines[..i] + ([lines[i]] + lines[i + 1..]);
    JoinAppend(lines[..i], [lines[i]] + lines[i + 1..]);
    JoinAppend([lines[i]], lines[i + 1..]);
    JoinLength(lines[..i]);
    assert lines[..i + 1][..i] == lines[..i];
    JoinLength(lines);
    assert lines[..|lines|] == lines;
  }

  /** Each line starts where the previous one ends. */
  lemma OffsetStep(lines: seq<string>, i: nat)
    requires i < |lines|
    ensures Offset(lines, i + 1) == Offset(lines, i) + |lines[i]|
  {
    assert lines[..i + 1][..i] == lines[..i];
  }

  /** An occurrence inside an occurrence is an occurrence. */
  lemma OccursAtTrans(s: string, t: string, u: string, k: int, j: int)
    requires OccursAt(s, t, k) && OccursAt(t, u, j)
    ensures OccursAt(s, u, k + j)
  {
    forall i | 0 <= i < |u|
      ensures s[k + j..k + j + |u|][i] == u[i]
    {
      assert u[i] == t[j + i];
      assert t[j + i] == s[k + j + i];
    }
  }

  /** An occurrence survives adding text on either side. */
  lemma OccursAtShift(p: string, s: string, q: string, t: string, k: int)
    requires OccursAt(s, t, k)
    ensures OccursAt(p + s + q, t, |p| + k)
  {
    assert (p + s + q)[|p| + k..|p| + k + |t|] == s[k..k + |t|];
  }
}

=== FILE: parameter.dfy ===
/** A flag descriptor (parameter.go). */
module Parameters {

  /** Long name, short alias, one-line usage and help description. */
  datatype Parameter = Parameter(name: string, shortname: string, use: string, description: string)

  /** The spellings a parameter is registered under: its name, then its
      short alias. The alias is listed even when it is empty, so a parameter
      without a short form still registers the empty flag name. */
  function Aliases(p: Parameter): (r: seq<string>)
    ensures |r| == 2
    ensures r[0] == p.name && r[1] == p.shortname
  {
    [p.name, p.shortname]
  }

  /** The aliases a parameter is meant to register: its name, and its short
      alias only when it has one. */
  function GivenAliases(p: Parameter): (r: seq<string>)
    ensures 1 <= |r| <= 2 && r[0] == p.name
    ensures forall a :: a in r <==> a == p.name || (a == p.shortname && a != "")
    ensures p.shortname != "" ==> r == Aliases(p)
    ensures p.shortname == "" ==> r == Aliases(p)[..1]
  {
    if p.shortname == "" then [p.name] else [p.name, p.shortname]
  }

  /** The aliases depend on the name and short alias only. */
  lemma AliasesIgnoreText(p: Parameter, use: string, description: string)
    ensures Aliases(p.(use := use, description := description)) == Aliases(p)
  {
  }
}

=== FILE: scenarios.dfy ===
/** Concrete trees and argument vectors taken from the repository's tests,
    with what the model says about them. */
module Scenarios {
  import opened Wrappers
  import opened Strconv
  import opened Parameters
  import opened FlagSets
  import opened Helps
  import opened Commands
  import Configurators

  /** Appends the children one by one, in order. */
  function AddAll(c: Command, children: seq<Command>): (r: Command)
    ensures r.commands == c.commands + children
    ensures r.(commands := c.commands) == c
    decreases |children|
  {
    if |children| == 0 then c
    else AddAll(AddCommand(c, children[0]).0, children[1..])
  }

  /** Children added to a command without children under pairwise distinct
      names are each found under their name, and no other name finds one. */
  lemma FindsEveryAddedChild(c: Command, children: seq<Command>)
    requires |c.commands| == 0
    requires forall i, j :: 0 <= i < j < |children| ==> children[i].name != children[j].name
    ensures forall i :: 0 <= i < |children| ==>
      FindCommand(AddAll(c, children), children[i].name) == Some(children[i])
    ensures forall name :: (forall i :: 0 <= i < |children| ==> children[i].name != name) ==>
      FindCommand(AddAll(c, children), name).None?
  {
    var r := AddAll(c, children);
    assert r.commands == children;
    forall i | 0 <= i < |children|
      ensures FindCommand(r, children[i].name) == Some(children[i])
    {
      var x := FindCommand(r, children[i].name).value;
      var k :| FirstChildNamed(r, children[i].name, k) && x == r.commands[k];
      if k > i {
        assert r.commands[i].name == children[i].name;
      }
    }
  }

  function NumberedName(i: nat): string {
    "command_" + Itoa(i)
  }

  function Numbered(n: nat): (cs: seq<Command>)
    ensures |cs| == n
    ensures forall i :: 0 <= i < n ==> cs[i] == NewCommand(NumberedName(i), "", "")
  {
    seq(n, i requires 0 <= i < n => NewCommand(NumberedName(i), "", ""))
  }

  /** `command_i` and `command_j` differ whenever `i` and `j` do. */
  lemma NumberedNamesDistinct(i: nat, j: nat)
    requires i != j && IsInt64(i) && IsInt64(j)
    ensures NumberedName(i) != NumberedName(j)
  {
    if NumberedName(i) == NumberedName(j) {
      assert Itoa(i) == NumberedName(i)[8..];
      assert Itoa(j) == NumberedName(j)[8..];
      ItoaInjective(i, j);
    }
  }

  /** Adding `command_0` … `command_{n-1}` makes each of them findable and
      leaves `command_n` unknown. */
  lemma NumberedChildrenFound(c: Command, n: nat)
    requires |c.commands| == 0 && IsInt64(n)
    ensures var root := AddAll(c, Numbered(n));
      && |root.commands| == n
      && (forall i :: 0 <= i < n ==> FindCommand(root, NumberedName(i)).Some?)
      && FindCommand(root, NumberedName(n)).None?
  {
    var cs := Numbered(n);
    forall i, j | 0 <= i < j < |cs|
      ensures cs[i].name != cs[j].name
    {
      NumberedNamesDistinct(i, j);
    }
    forall i | 0 <= i < |cs|
      ensures cs[i].name != NumberedName(n)
    {
      NumberedNamesDistinct(i, n);
    }
    FindsEveryAddedChild(c, cs);
    forall i | 0 <= i < n
      ensures FindCommand(AddAll(c, cs), NumberedName(i)).Some?
    {
      assert cs[i].name == NumberedName(i);
    }
  }

  /** The sub-commands test: ten children `command_0` … `command_9` are all
      found, and `command_10` is not. */
  lemma TenSubCommands()
    ensures var root := AddAll(NewCommand("do", "seo do", ""), Numbered(10));
      && |root.commands| == 10
      && (forall i :: 0 <= i < 10 ==> FindCommand(root, NumberedName(i)).Some?)
      && FindCommand(root, NumberedName(10)).None?
  {
    NumberedChildrenFound(NewCommand("do", "seo do", ""), 10);
  }

  function Seo(): Command {
    NewCommand("seo", "seo [command]", "")
  }

  function SeoDo(): Command {
    AddCommand(Seo(), NewCommand("do", "seo do [command]", "")).0
  }

  function SeoDoConcurrent(): Command {
    var concurrent := NewCommand("concurrent", "seo do concurrent", "");
    var doCommand := AddCommand(NewCommand("do", "seo do [command]", ""), concurrent).0;
    AddCommand(Seo(), doCommand).0
  }

  /** The resolution tests: `do` and `do concurrent` reach the named
      commands. */
  lemma ResolutionExamples()
    ensures GetCurrentCommand(SeoDo(), ["do"]).node.name == "do"
    ensures GetCurrentCommand(SeoDoConcurrent(), ["do", "concurrent"]).node.name == "concurrent"
  {
    var root := SeoDoConcurrent();
    assert !IsFlagArg("do") && !IsFlagArg("concurrent");
    assert FindCommand(root, "do") == Some(root.commands[0]);
    assert FindCommand(root.commands[0], "concurrent") == Some(root.commands[0].commands[0]);
    assert FindCommand(SeoDo(), "do") == Some(SeoDo().commands[0]);
  }

  /** A flag stops the walk before `concurrent`. */
  lemma ResolutionStops()
    ensures GetCurrentCommand(SeoDoConcurrent(), ["do", "--verbose", "concurrent"]) ==
      Resolution(SeoDoConcurrent().commands[0], 1, None)
  {
    var root := SeoDoConcurrent();
    assert !IsFlagArg("do") && IsFlagArg("--verbose");
    assert FindCommand(root, "do") == Some(root.commands[0]);
    ResolvesKnownPath(root, ["do"], ["--verbose", "concurrent"], root.commands[0]);
    assert ["do"] + ["--verbose", "concurrent"] == ["do", "--verbose", "concurrent"];
  }

  /** An unknown name is reported at the root. */
  lemma UnknownCommandReported()
    ensures GetCurrentCommand(SeoDo(), ["dox", "-v"]) == Resolution(SeoDo(), 0, Some(CommandNotFound("dox")))
  {
    assert !IsFlagArg("dox");
  }

  function MessageParameter(): Parameter {
    Parameter("message", "m", "", "message value")
  }

  function HelpRoot(): Command {
    var doCommand := NewCommand("do", "seo do [flags]", "").(parameters := [MessageParameter()]);
    AddCommand(NewCommand("seo", "seo [command]", "seo command"), doCommand).0
  }

  /** The help tests: `help do` yields, through either front end, help whose
      parameter block shows the description `message value`. */
  lemma HelpDoShowsMessage()
    ensures var r := FindHelp(HelpRoot(), ["help", "do"]);
      r.Success? && r.value.Some? && Contains(r.value.value.parameters, "message value")
    ensures Configurators.FindHelp(Configurators.Configurator(["help", "do"], Some(HelpRoot()))) ==
      FindHelp(HelpRoot(), ["help", "do"])
  {
    var root := HelpRoot();
    var args := ["help", "do"];
    assert args[1..] == ["do"];
    assert FindCommand(root, "do") == Some(root.commands[0]);
    assert GetCurrentCommand(root, ["do"]).node == root.commands[0];
    HelpShowsDescription(root.commands[0], 0);
    Configurators.FindHelpAgreement(Configurators.Configurator(args, Some(root)));
  }

  /** The run test: parsing `do` hands `do`'s flag layer no tokens and, when
      that succeeds, running the result calls `do`'s handler on `do`. */
  lemma ParseThenRunCallsDo(h: HandlerId, layer: FlagLayer)
    requires layer(Do(NewCommand("do", "seo do [flags]", ""), h).flags, []).Success?
    ensures var root := AddCommand(Seo(), Do(NewCommand("do", "seo do [flags]", ""), h)).0;
      var r := Parse(root, ["do"], layer);
      && r.Success?
      && r.value.name == "do"
      && Run(r.value) == Success(Call(h, r.value))
  {
    var doCommand := Do(NewCommand("do", "seo do [flags]", ""), h);
    var root := AddCommand(Seo(), doCommand).0;
    assert FindCommand(root, "do") == Some(doCommand);
    assert ["do"][1..] == [];
  }

  /** The initialize test: with the single argument `do`, the configurator
      hands `do` itself to `do`'s flag layer and then calls `do`'s handler. */
  lemma InitializeCallsDo(h: HandlerId, layer: FlagLayer)
    requires layer(Do(NewCommand("do", "seo do [flags]", ""), h).flags, ["do"]).Success?
    ensures var doCommand := Do(NewCommand("do", "seo do [flags]", ""), h);
      var cfg := Configurators.Configurator(["do"], Some(AddCommand(Seo(), doCommand).0));
      Configurators.HandlerPresentWhenReached(cfg, layer, Configurators.InitializeTokens(cfg.args))
      && Configurators.Initialize(cfg, layer).Success?
      && Configurators.Initialize(cfg, layer).value.handler == h
      && Configurators.Initialize(cfg, layer).value.target.name == "do"
  {
    var doCommand := Do(NewCommand("do", "seo do [flags]", ""), h);
    var root := AddCommand(Seo(), doCommand).0;
    var cfg := Configurators.Configurator(["do"], Some(root));
    assert FindCommand(root, "do") == Some(doCommand);
    Configurators.WalkAgrees(root, ["do"]);
    assert ["do"][1..] == [];
    assert Configurators.ParseCommand(cfg, cfg.args).node == doCommand;
  }

  /** The parameter tests: once the flag layer has written a parsed value
      into a bound cell, the typed getter returns it under either alias. */
  lemma ParsedValuesReadBack()
    ensures var c := AddStringParameter(NewCommand("do", "seo do", ""), Parameter("message", "m", "", ""), 0, "").0;
      var parsed := c.(flags := c.flags.(store := c.flags.store[0 := S("seo do rocks")]));
      GetString(parsed, "message") == Success("seo do rocks") && GetString(parsed, "m") == Success("seo do rocks")
    ensures var c := AddBoolParameter(NewCommand("do", "seo do", ""), Parameter("verbose", "v", "", ""), 0, false).0;
      var parsed := c.(flags := c.flags.(store := c.flags.store[0 := B(true)]));
      GetBool(parsed, "verbose") == Success(true) && GetBool(parsed, "v") == Success(true)
    ensures var c := AddIntParameter(NewCommand("do", "seo do", ""), Parameter("count", "c", "", ""), 0, 0).0;
      var parsed := c.(flags := c.flags.(store := c.flags.store[0 := I(16)]));
      GetInt(parsed, "count") == Success(16) && GetInt(parsed, "c") == Success(16)
  {
  }

  /** A flag layer for the string test: `--message <text>` writes the text
      into the cell of the `message` flag, no tokens change nothing, and
      anything else fails. */
  function MessageLayer(fs: FlagSet, tokens: seq<string>): Result<FlagSet, string> {
    if |tokens| == 0 then Success(fs)
    else if && |tokens| == 2 && tokens[0] == "--message" && "message" in fs.formal
            && fs.formal["message"].cell in fs.store && fs.store[fs.formal["message"].cell].S? then
      Success(fs.(store := fs.store[fs.formal["message"].cell := S(tokens[1])]))
    else Failure("flag provided but not defined: " + (if |tokens| > 0 then tokens[0] else ""))
  }

  /** That layer only writes values, as `FlagSet.Parse` does. */
  lemma MessageLayerWellBehaved()
    ensures WellBehaved(MessageLayer)
  {
  }

  /** Whatever the tree and the arguments, a successful parse with the
      `--message` layer keeps the resolved command apart from its cell
      values, and two aliases of one parameter read the same value. */
  lemma MessageLayerKeepsAliasesTogether(c: Command, args: seq<string>)
    requires Parse(c, args, MessageLayer).Success?
    ensures var n := GetCurrentCommand(c, args).node;
            var r := Parse(c, args, MessageLayer).value;
      && r.(flags := n.flags) == n
      && (forall a, b :: Registered(n, a) && Registered(n, b) && n.flags.formal[a].cell == n.flags.formal[b].cell ==>
            CellValue(r, a) == CellValue(r, b))
  {
    MessageLayerWellBehaved();
    ParseKeepsBindings(c, args, MessageLayer);
  }

  /** Under `seo`, the arguments `do` followed by flag tokens resolve to a
      child named `do` and hand it exactly those tokens. */
  lemma ParseUnderSeo(doCommand: Command, tokens: seq<string>, layer: FlagLayer)
    requires doCommand.name == "do"
    requires |tokens| == 0 || IsFlagArg(tokens[0])
    ensures Parse(AddCommand(Seo(), doCommand).0, ["do"] + tokens, layer) ==
      match layer(doCommand.flags, tokens)
      case Failure(msg) => Failure(FlagError(msg))
      case Success(fs) => Success(doCommand.(flags := fs))
  {
    var root := AddCommand(Seo(), doCommand).0;
    assert !IsFlagArg("do");
    assert FindCommand(root, "do") == Some(doCommand);
    ResolvesKnownPath(root, ["do"], tokens, doCommand);
    assert (["do"] + tokens)[1..] == tokens;
  }

  function MessageBound(): Command {
    AddStringParameter(NewCommand("do", "seo do", ""), Parameter("message", "m", "", ""), 0, "").0
  }

  /** Binding `message`/`m` puts both names on cell 0, which holds `""`. */
  lemma MessageBoundFlags()
    ensures var fs := MessageBound().flags;
      && fs.formal["message"] == Flag(0, "") && fs.formal["m"] == Flag(0, "")
      && 0 in fs.store && fs.store[0] == S("")
    ensures MessageBound().name == "do"
  {
    var p := Parameter("message", "m", "", "");
    assert "message" in Aliases(p) && "m" in Aliases(p);
  }

  /** `do --message <text>` resolves to a child `do` whose `message` flag
      writes a string cell, hands it the flag tokens, and the layer writes
      the text into that cell. */
  lemma ParsesMessage(doCommand: Command, text: string)
    requires doCommand.name == "do"
    requires "message" in doCommand.flags.formal
    requires var cell := doCommand.flags.formal["message"].cell;
      cell in doCommand.flags.store && doCommand.flags.store[cell].S?
    ensures var fs := doCommand.flags;
      Parse(AddCommand(Seo(), doCommand).0, ["do", "--message", text], MessageLayer) ==
      Success(doCommand.(flags := fs.(store := fs.store[fs.formal["message"].cell := S(text)])))
  {
    var tokens := ["--message", text];
    assert IsFlagArg("--message");
    ParseUnderSeo(doCommand, tokens, MessageLayer);
    assert ["do"] + tokens == ["do", "--message", text];
  }

  /** The string parameter test through `Parse`: with `message`/`m` bound on
      `do`, the arguments `do --message <text>` resolve to `do`, hand it the
      flag tokens, and the text reads back under either alias (an empty text
      reads as a missing parameter). */
  lemma StringParameterThroughParse(text: string)
    ensures var r := Parse(AddCommand(Seo(), MessageBound()).0, ["do", "--message", text], MessageLayer);
      && r.Success? && r.value.name == "do"
      && Registered(r.value, "message") && Registered(r.value, "m")
      && GetString(r.value, "message") == (if text == "" then Failure(ParameterNotFound) else Success(text))
      && GetString(r.value, "m") == GetString(r.value, "message")
  {
    MessageBoundFlags();
    ParsesMessage(MessageBound(), text);
    var fs := MessageBound().flags;
    var r := MessageBound().(flags := fs.(store := fs.store[0 := S(text)]));
    StringCellReads(r, "message", text);
    StringCellReads(r, "m", text);
  }

  lemma StringCellReads(c: Command, name: string, text: string)
    requires Registered(c, name) && CellValue(c, name) == S(text)
    ensures GetString(c, name) == if text == "" then Failure(ParameterNotFound) else Success(text)
  {
  }

  /** Text that is not a decimal integer fails the integer getter. */
  lemma StringCellIsNotAnInt()
    ensures var c := AddStringParameter(NewCommand("do", "seo do", ""), Parameter("count", "c", "", ""), 0, "abc").0;
      GetInt(c, "count") == Failure(NotAnInt("abc"))
  {
  }
}

=== FILE: strconv.dfy ===
/** The slice of Go's `strconv` package the getters rely on: the decimal and
    boolean printers used by the flag values' `String()` methods, and the
    parsers `Atoi` and `ParseBool` that the getters apply to that text. */
module Strconv {
  import opened Wrappers

  /** Go's `int` on a 64-bit platform. */
  predicate IsInt64(n: int) {
    -0x8000_0000_0000_0000 <= n < 0x8000_0000_0000_0000
  }

  type Int64 = n: int | IsInt64(n)

  predicate IsDigit(ch: char) {
    '0' <= ch <= '9'
  }

  predicate AllDigits(s: string) {
    forall i :: 0 <= i < |s| ==> IsDigit(s[i])
  }

  function DigitChar(d: nat): (ch: char)
    requires d < 10
    ensures IsDigit(ch) && ch as int - '0' as int == d
  {
    ('0' as int + d) as char
  }

  /** The value of a string of decimal digits, most significant first. */
  function DigitsValue(s: string): nat
    requires AllDigits(s)
  {
    if |s| == 0 then 0
    else DigitsValue(s[..|s| - 1]) * 10 + (s[|s| - 1] as int - '0' as int)
  }

  /** Decimal text of a natural number, without leading zeros. */
  function NatText(n: nat): (s: string)
    ensures |s| >= 1 && AllDigits(s)
    ensures |s| > 1 ==> s[0] != '0'
  {
    if n < 10 then [DigitChar(n)] else NatText(n / 10) + [DigitChar(n % 10)]
  }

  /** `strconv.Itoa`: decimal text with a leading `-` for negative numbers. */
  function Itoa(n: int): (s: string)
    ensures |s| >= 1
    ensures s[0] == '-' <==> n < 0
    ensures s[0] != '+'
  {
    if n < 0 then "-" + NatText(-n) else NatText(n)
  }

  /** `strconv.Atoi` on a 64-bit platform: an optional sign followed by at
      least one decimal digit, whose value fits in an `int`. Every other
      text (empty, a bare sign, any other character, out of range) is an
      error; the model does not distinguish Go's syntax and range errors. */
  function Atoi(s: string): (r: Option<Int64>)
    ensures r.Some? ==> |s| >= 1 && (IsDigit(s[0]) || (|s| >= 2 && (s[0] == '+' || s[0] == '-')))
    ensures r.Some? ==> forall i :: 1 <= i < |s| ==> IsDigit(s[i])
    ensures r.Some? ==> (r.value < 0 ==> s[0] == '-') && (s[0] == '-' ==> r.value <= 0)
    ensures r.Some? ==> r.value == if IsDigit(s[0]) then DigitsValue(s)
                                   else if s[0] == '+' then DigitsValue(s[1..])
                                   else 0 - DigitsValue(s[1..])
    ensures |s| >= 1 && AllDigits(s) && IsInt64(DigitsValue(s)) ==> r == Some(DigitsValue(s))
    ensures |s| >= 2 && s[0] == '-' && AllDigits(s[1..]) && IsInt64(0 - DigitsValue(s[1..])) ==>
      r == Some(0 - DigitsValue(s[1..]))
  {
    if |s| == 0 then None
    else
      var digits := if s[0] == '+' || s[0] == '-' then s[1..] else s;
      if |digits| == 0 || !AllDigits(digits) then None
      else
        var v: int := if s[0] == '-' then 0 - DigitsValue(digits) else DigitsValue(digits);
        if IsInt64(v) then Some(v) else None
  }

  /** `strconv.FormatBool`. */
  function FormatBool(b: bool): (s: string)
    ensures |s| >= 4
  {
    if b then "true" else "false"
  }

  /** `strconv.ParseBool`: exactly twelve spellings are accepted. */
  function ParseBool(s: string): (r: Option<bool>)
    ensures r == Some(true) <==> s in {"1", "t", "T", "TRUE", "true", "True"}
    ensures r == Some(false) <==> s in {"0", "f", "F", "FALSE", "false", "False"}
  {
    match s
    case "1" => Some(true)
    case "t" => Some(true)
    case "T" => Some(true)
    case "TRUE" => Some(true)
    case "true" => Some(true)
    case "True" => Some(true)
    case "0" => Some(false)
    case "f" => Some(false)
    case "F" => Some(false)
    case "FALSE" => Some(false)
    case "false" => Some(false)
    case "False" => Some(false)
    case _ => None
  }

  lemma {:induction false} NatTextValue(n: nat)
    ensures DigitsValue(NatText(n)) == n
  {
    var s := NatText(n);
    if n >= 10 {
      NatTextValue(n / 10);
      assert s[..|s| - 1] == NatText(n / 10);
    }
  }

  /** Printing an `int` and reading it back gives the same number. */
  lemma AtoiItoa(n: Int64)
    ensures Atoi(Itoa(n)) == Some(n)
  {
    NatTextValue(if n < 0 then -(n as int) else n as int);
    if n < 0 {
      assert Itoa(n)[1..] == NatText(0 - n);
    }
  }

  /** `Itoa` never prints two numbers the same way. */
  lemma ItoaInjective(m: Int64, n: Int64)
    requires Itoa(m) == Itoa(n)
    ensures m == n
  {
    AtoiItoa(m);
    AtoiItoa(n);
  }

  /** Printing a boolean and reading it back gives the same boolean. */
  lemma ParseBoolFormatBool(b: bool)
    ensures ParseBool(FormatBool(b)) == Some(b)
  {
  }
}

=== FILE: utf8.dfy ===
/** Go strings are byte sequences: `len(s)` counts bytes and `s[i]` is a
    byte of the UTF-8 encoding. Tokens here are sequences of Unicode scalar
    values, so the byte-level reading of a token goes through its UTF-8
    encoding. */
module Utf8 {

  type Byte = b: int | 0 <= b < 0x100

  /** The UTF-8 encoding of one character: one byte below U+0080, otherwise
      a lead byte from 0xC0 up followed by continuation bytes 0x80..0xBF. */
  function EncodeChar(ch: char): (r: seq<Byte>)
    ensures 1 <= |r| <= 4
    ensures |r| == 1 <==> ch as int < 0x80
    ensures |r| == 1 ==> r[0] == ch as int
    ensures |r| > 1 ==> r[0] >= 0xC0 && forall i :: 1 <= i < |r| ==> 0x80 <= r[i] < 0xC0
  {
    var n := ch as int;
    if n < 0x80 then [n]
    else if n < 0x800 then [0xC0 + n / 0x40, 0x80 + n % 0x40]
    else if n < 0x1_0000 then [0xE0 + n / 0x1000, 0x80 + n / 0x40 % 0x40, 0x80 + n % 0x40]
    else [0xF0 + n / 0x4_0000, 0x80 + n / 0x1000 % 0x40, 0x80 + n / 0x40 % 0x40, 0x80 + n % 0x40]
  }

  /** The UTF-8 encoding of a string: the characters' encodings in order. */
  function Encode(s: string): (r: seq<Byte>)
    ensures |r| >= |s|
    ensures |r| == 0 <==> |s| == 0
  {
    if |s| == 0 then [] else EncodeChar(s[0]) + Encode(s[1..])
  }

  /** How the first two bytes of an encoding relate to the first two
      characters: an ASCII character is its own single byte, and any other
      character contributes at least two bytes, none of them ASCII. */
  lemma EncodeFront(s: string)
    ensures |s| >= 1 && s[0] as int < 0x80 ==>
      Encode(s) == [s[0] as int] + Encode(s[1..])
    ensures |s| >= 1 && s[0] as int >= 0x80 ==>
      |Encode(s)| >= 2 && Encode(s)[0] >= 0x80 && Encode(s)[1] >= 0x80
    ensures |s| >= 2 && s[1] as int < 0x80 ==>
      Encode(s[1..]) == [s[1] as int] + Encode(s[2..])
    ensures |s| >= 2 && s[1] as int >= 0x80 ==>
      |Encode(s[1..])| >= 2 && Encode(s[1..])[0] >= 0x80
  {
    if |s| >= 1 {
      var e := EncodeChar(s[0]);
      assert Encode(s) == e + Encode(s[1..]);
      if s[0] as int >= 0x80 {
        assert Encode(s)[1] == e[1];
      }
      if |s| >= 2 {
        assert Encode(s[1..]) == EncodeChar(s[1]) + Encode(s[1..][1..]);
        assert s[1..][1..] == s[2..];
      }
    }
  }
}

=== FILE: wrappers.dfy ===
/** Optional values and results with an error, as used throughout the model
    in place of Go's nil pointers and `(value, error)` pairs. */
module Wrappers {

  datatype Option<+T> = None | Some(value: T)

  datatype Result<+R, +E> = Success(value: R) | Failure(error: E)
}
